=== FILE: README.md ===
# Customer-service agent router: a Dafny model

This project models the decision logic of a customer-service assistant for a
payments company. A **router** receives a user's query. It first tries to split
the query at conjunctions into several sub-queries. An explicit ticket request
goes straight to support. Otherwise the router classifies the intent:

- escalation patterns are checked first;
- then a language-model classifier, whose text reply is parsed defensively;
- then pattern scores and keyword fallbacks.

The query then goes to one of two responders, or is handed to a person.

- The **knowledge responder** answers from a document store through a tiered
  fallback chain. Each tier has a fixed confidence band.
- The **support responder** dispatches on keywords to tools over an in-memory
  **user store**: account card, recent transactions, transfer diagnostics and
  ticket creation. It asks for the user id when a query needs one.
- The **personality layer** post-processes answers:
  - sequential word replacements;
  - a friendly closing;
  - a tone prefix or suffix chosen from the context;
  - a line-normalising formatter.

The layer applies the tone to the already-replaced text, as the code does.
The replacements turn "problema" and "erro" into other words, so the support
prefix only reacts to forms the replacements miss, such as "Problema".

Everything is pure functions over immutable datatypes.

- Strings are `seq<char>`.
- Confidences are `real`.
- Money is integer cents.
- The data file is a `Store` value that each responder returns, possibly
  extended by one ticket.

The regular-expression engine, the language models, the retriever, the
language detector and Python's `float()` appear as function-valued fields of
`Backend` records. The vector store is a value field: the `Outcome` of loading
it and the `Outcome` of its size call.

- `Router.Sound(find)` is the one property assumed of the regex engine: every
  match is non-empty and inside the text. None of the patterns used can match
  the empty string.
- `Router.Route` needs `Sound` for its termination argument. A query that
  splits in two or more is routed fragment by fragment, and every fragment is
  strictly shorter than the query. The decreasing measure is the query's
  length.

Modules, one per file:

- `Wrappers`: `Option`, and `Outcome`, which is the result of an outside call
  that may raise.
- `Text`: Python string built-ins:
  - `lower` (ASCII and Latin-1), `strip`, `split()`, `split(c)`, `join`;
  - `in`, `find`, `split(sep)` for a string separator, and `replace`,
    proved equal to `rep.join(s.split(pat))` (`Text.ReplaceIsSplitJoin`);
  - `title`, with the Latin-1 letters whose title form is not a plain
    shift (ß, ÿ, µ).
- `Numbers`: `str(n)`, `zfill` and `int()`, with their round trip.
- `Reals`: `min` and `max` on two numbers.
- `Sorting`: Python's string order and a stable descending insertion sort.
- `Locale`: the two different "is this English?" tests used in the code.
- `UserStore`, `Knowledge`, `Support`, `Personality`, `Router`: the five core
  source files.

The code and its tests disagree in three places. The model follows the code:

- `tests/test_knowledge.py:46` expects confidence 0.0 when the store has no
  content. The code returns 0.05 (`agents/knowledge_agent.py:222`), which is
  `Knowledge.HandleNoContent`.
- `tests/test_router.py:44` expects "Não estou entendendo nada" to escalate.
  No escalation pattern matches "entendendo" (`agents/router_agent.py:63-71`).
  The only nearby pattern is "não entendi".
- `tests/test_router.py:31` expects "Como faço para abrir uma conta?" to be
  classified as knowledge. The support pattern `conta\b` matches it. No
  knowledge pattern does: `abrir\s+conta\b` needs the two words adjacent.
  Support therefore scores 1 against 0 and wins.

## Model

| member | source | states |
|---|---|---|
| Router.IntentOfLabel | agents/router_agent.py:154-156 | a parsed label is accepted exactly when it names one of the four intents, and the intent it yields is the one with that name |
| Router.CheckEscalation | agents/router_agent.py:308-313 | escalation exactly when some escalation pattern matches, that is when the escalation score is positive |
| Router.Score | agents/router_agent.py:167-173 | the per-intent score is the number of patterns that match: the size of the set of matching pattern indices; hence at most the number of patterns, and zero exactly when no pattern matches |
| Router.ScoreConfidence | agents/router_agent.py:189-198 | for a top score of at least 1 the confidence is in [0.6, 1.0]; a score of 2 or more gives 1.0; a score of 1 gives 0.8 for queries of more than three words, else 0.6 |
| Router.KeywordFallback | agents/router_agent.py:176-183 | support exactly when a support keyword occurs; knowledge exactly when none does and a knowledge keyword occurs; confidence 0.6, or 0.3 for unknown |
| Router.RulesClassify | agents/router_agent.py:164-200 | never escalates; confidence in [0.3, 1]; all-zero scores defer to the keyword fallback; otherwise the intent is not unknown, ties go to support (support wins only with a score ≥ knowledge's, knowledge only with a strictly higher one), and the confidence is the one computed from the winning score and the word count |
| Router.FieldAfter | agents/router_agent.py:146-150 | the text after the first occurrence of the key runs up to the next occurrence and contains no further key, as `split(key)[1]` does |
| Router.LastLabelWins | agents/router_agent.py:145-147 | the intent label comes from the last line containing `CLASSIFICATION:` |
| Router.ScanKeepsLabel | agents/router_agent.py:141-147 | with no classification line the label keeps its initial value |
| Router.LastConfidenceWins | agents/router_agent.py:145-152 | the confidence comes from the last confidence line that is not a classification line |
| Router.ScanKeepsConfidence | agents/router_agent.py:141-152 | with no confidence line the confidence keeps its initial value |
| Router.ParseModelOutput | agents/router_agent.py:141-158 | a result exactly when the last label names an intent; its confidence is `min(scanned, 0.95)`: the scanned value when at most 0.95, exactly 0.95 above it, with no lower clamp |
| Router.UnlabelledOutputIsUnknown | agents/router_agent.py:142-156 | a reply without a classification line is accepted as the unknown intent |
| Router.Starts | agents/router_agent.py:333-334 | one start position per match, in match order |
| Router.SplitPoints | agents/router_agent.py:331-335 | the split points are the match starts of every split pattern, each inside the text; none exactly when no pattern matches |
| Router.InsertAscending | agents/router_agent.py:342 | inserting a point into ascending points keeps them ascending and adds exactly that point |
| Router.SortAscending | agents/router_agent.py:342 | the split points sorted ascending, as a permutation of the points found |
| Router.PairSplit | agents/router_agent.py:362-364 | the two-way split at the first " e " or " and " exists exactly when the pair pattern matches, and both halves are shorter than the query |
| Router.PairFragments | agents/router_agent.py:362-367 | the pair split is kept only as exactly two parts, each shorter than the query |
| Router.Piece | agents/router_agent.py:343-346 | a cut yields at most one fragment, non-empty and stripped, shorter than the query when the point lies inside it |
| Router.NextStart | agents/router_agent.py:348-355 | the next stretch starts strictly after the split point |
| Router.CutAt | agents/router_agent.py:342-355 | every fragment the loop keeps is non-empty and stripped, and shorter than the query when the points lie inside it; after any point the remainder starts past position 0 |
| Router.Remainder | agents/router_agent.py:357-360 | the remainder yields at most one fragment, non-empty and stripped, shorter than the query once a cut was made |
| Router.SplitAtPoints | agents/router_agent.py:338-369 | at least one fragment; with two or more, every fragment is strictly shorter than the query |
| Router.SplitMultiIntent | agents/router_agent.py:325-369 | never empty; exactly `[query]` when no conjunction position exists; with two or more fragments, each is strictly shorter than the query |
| Router.ModelClassify | agents/router_agent.py:95-162 | nothing unless the model is configured; the parse of the reply when the call returns; any result is capped at 0.95 |
| Router.ClassifyIntent | agents/router_agent.py:79-93 | an escalation match on the lower-cased, stripped query gives ("escalate", 1.0) without the model or the rules; otherwise a model result wins; without one the rules decide; the confidence is at most 1, and at least 0.3 without the model |
| Router.ExtendsTransitive | agents/router_agent.py:377-382 | appending tickets for the same user over several routed fragments composes |
| Router.SupportExtends | agents/support_agent.py:247-270 | the support responder changes the store only by appending tickets opened for the caller |
| Router.RouteToSupport | agents/router_agent.py:267-275 | the support response relabelled with intent support, the given confidence and the language |
| Router.RouteUnknown | agents/router_agent.py:287-306 | knowledge exactly when it is available and its own confidence exceeds 0.3, otherwise support; the intent equals the agent used |
| Router.RouteIntent | agents/router_agent.py:245-306 | escalate exactly when the reply is a hand-off with agent "router", no responder run and the store unchanged; support and knowledge keep the classifier confidence; unknown is damped to 0.8 × confidence |
| Router.RouteSingle | agents/router_agent.py:221-306 | the ticket override wins (support, 0.95) before the escalation check; then an escalation hand-off at 1.0; the unknown intent goes to knowledge or support at 0.8 × its confidence; the confidence is at most 1, and at least 0.24 without the model |
| Router.SumAtMost | agents/router_agent.py:382 | a sum of confidences each at most `hi` is at most n × hi |
| Router.SumAtLeast | agents/router_agent.py:382 | a sum of confidences each at least `lo` is at least n × lo |
| Router.MeanWithin | agents/router_agent.py:391 | the mean confidence lies within any common bound of the fragment confidences |
| Router.AgentsUsed | agents/router_agent.py:381 | `agents_used` has one entry per fragment, in input order |
| Router.Answers | agents/router_agent.py:380 | the responses have one entry per fragment, in input order |
| Router.Entries | agents/router_agent.py:388-389 | one numbered item per fragment, numbered from 1 in input order, pairing each fragment with its response |
| Router.Combine | agents/router_agent.py:371-401 | agent "router", intent "multi_intent"; the sub-queries and agents used in order and of equal length; the confidence is the mean of the fragment confidences; the answer is the localized header followed by the numbered items, stripped |
| Router.Route | agents/router_agent.py:215-219 | a combined reply exactly when the split yields two or more fragments, with the split fragments as its sub-queries; otherwise single routing; the store only gains the caller's tickets; the confidence is at most 1 |
| Router.RouteAll | agents/router_agent.py:377-382 | every fragment routed in turn with the store threaded through; one result per fragment, each with confidence at most 1 |
| Router.CallLanguage | agents/router_agent.py:206-213 | the given language, else the detected one, else "pt" when detection fails |
| Router.RouteQuery | agents/router_agent.py:202-306 | the response carries the call's language; the store only gains tickets of the caller; the confidence is at most 1 |
| Knowledge.InitVectorStore | agents/knowledge_agent.py:49-73 | the store is kept exactly when loading and counting succeed and the count is not zero |
| Knowledge.InitKeepsNonEmpty | agents/knowledge_agent.py:60-66 | a loaded store with a non-zero count is kept |
| Knowledge.IsAvailable | agents/knowledge_agent.py:311-313 | available exactly when a store was kept; every store with sufficient content is available |
| Knowledge.HasSufficientContent | agents/knowledge_agent.py:176-189 | a store exists and its count call returns more than ten; a count that raises counts as too few |
| Knowledge.IsAnswerInsufficient | agents/knowledge_agent.py:191-202 | the lower-cased answer holds one of the twelve refusal phrases |
| Knowledge.DefaultAnswerIsInsufficient | agents/knowledge_agent.py:148-153 | the default answer for a chain result without text counts as insufficient, so it never reaches the success path |
| Knowledge.QuotedRefusalIsInsufficient | agents/knowledge_agent.py:191-202 | an answer that quotes any of the refusal phrases, in any mix of upper and lower case, is insufficient whatever surrounds the quote |
| Knowledge.InsufficientIgnoresCase | agents/knowledge_agent.py:202 | lower-casing an answer before the check does not change the verdict |
| Knowledge.KeptSources | agents/knowledge_agent.py:276-285 | the kept documents are a subsequence of the input (input order kept), each with a non-empty URL not seen before |
| Knowledge.KeptSourcesDistinct | agents/knowledge_agent.py:279-283 | the kept URLs are pairwise distinct |
| Knowledge.KeptSourcesCover | agents/knowledge_agent.py:279-283 | every non-empty URL not seen before is kept |
| Knowledge.KeptSourcesFirst | agents/knowledge_agent.py:279-283 | each kept document is the first of the input with its URL |
| Knowledge.SourceLine | agents/knowledge_agent.py:284-288 | each source is a "- " list item |
| Knowledge.SourceLineShows | agents/knowledge_agent.py:284-288 | a source line contains the document's URL, and its title when it has one |
| Knowledge.FormatSources | agents/knowledge_agent.py:273-290 | one line per kept document, the kept documents a subsequence of the input, never more lines than documents |
| Knowledge.FormatSourcesCovers | agents/knowledge_agent.py:273-290 | every document with a URL has its URL listed, and the listed URLs are distinct |
| Knowledge.CalculateConfidence | agents/knowledge_agent.py:292-304 | 0 for no documents; otherwise in [0.2, 1]; 1 for five or more documents |
| Knowledge.HandleNoContent | agents/knowledge_agent.py:204-224 | confidence 0.05, no sources, the no-content note, the English text exactly for primary subtag "en" |
| Knowledge.HandleFallback | agents/knowledge_agent.py:258-271 | confidence 0.2, no sources, the fallback note, the English text for any language starting with "en" |
| Knowledge.HandleNoRelevant | agents/knowledge_agent.py:226-256 | no sources; the model's decline at 0.1 when it returns, else the 0.2 fallback |
| Knowledge.ProcessQuery | agents/knowledge_agent.py:106-174 | the confidence is in [0.05, 1]; without sufficient content it is the no-content answer with no retrieval; sources only come without a note |
| Knowledge.ProcessQueryTiers | agents/knowledge_agent.py:115-174 | empty or failed retrieval gives the no-relevant tier; a failing chain gives the fallback; an insufficient answer or no source documents gives the no-relevant tier; otherwise success with the computed confidence and the sources appended |
| Knowledge.SourcesOnlyWhenAnswered | agents/knowledge_agent.py:152-170 | sources appear only when there is content, retrieval found documents, and the chain answered sufficiently |
| Knowledge.AvailableWithoutContent | agents/knowledge_agent.py:60-66 | a store that initialisation keeps with one to ten documents is available, yet every query gets the no-content confidence |
| Support.ContactNeedsUserId | agents/support_agent.py:320-328 | "entrar em contato" asks for the user id, because it contains "conta" |
| Support.RequiresUserId | agents/support_agent.py:320-328 | the lower-cased query holds one of the user-id keywords |
| Support.ExtractLimit | agents/support_agent.py:330-341 | the limit is in [1, 50], and 5 when the query has no digit |
| Support.ExtractLimitOf | agents/support_agent.py:330-341 | the first digit run, read as a number and clamped to [1, 50] |
| Support.ExtractTicketInfo | agents/support_agent.py:343-353 | a subject and description exactly when the query has more than five words; the subject is the text before the first '.', cut to 100 characters; the description is the first 1000 characters |
| Support.TicketSubjectStartsDescription | agents/support_agent.py:346-351 | the subject has no '.', is at most 100 characters, and is a prefix of the description |
| Support.AskForUserId | agents/support_agent.py:89-106 | no tool, `requires_user_id` set, and the English request for an English tag, the Portuguese one for every other tag |
| Support.GeneralSupport | agents/support_agent.py:280-318 | no tool and no user-id request; the model's stripped answer, else the localized fallback |
| Support.CountStatus | agents/support_agent.py:161-163 | the count never exceeds the number of transactions |
| Support.CountStatusIsMultiplicity | agents/support_agent.py:162-163 | the count is the multiplicity of the status among the transactions' statuses |
| Support.CountStatusAppend | agents/support_agent.py:162-163 | counting over a concatenation adds the two counts |
| Support.CountStatusDisjoint | agents/support_agent.py:161-163 | two different statuses together count at most the number of transactions |
| Support.TransferFactsOf | agents/support_agent.py:158-180 | the user's status, the Brazilian rendering of the balance, and the pending and failed counts as the multiplicities of those statuses among the five newest transactions, which sum to at most 5 |
| Support.Summarize | agents/support_agent.py:363-404 | a summary only when the model returns non-blank text; it is stripped |
| Support.TransferTemplate | agents/support_agent.py:193-234 | a non-active account's template quotes its status; an active one's states the balance |
| Support.DiagnoseTransfersFor | agents/support_agent.py:138-245 | an unknown user gets the not-found message with no tool; a known user gets the summary when there is one, else the template |
| Support.DataAnswer | agents/support_agent.py:109-141 | without a user id, the general answer; with one, account details on an account keyword, else the transaction listing with the extracted limit on a transaction keyword, else the transfer diagnosis on a transfer keyword, else the general answer; never a ticket |
| Support.TicketAnswer | agents/support_agent.py:247-270 | a ticket exactly when user id, subject and description are all truthy; otherwise the localized help text, the store unchanged, and `requires_user_id` exactly when the id is None; only an opened ticket changes the store |
| Support.ProcessQuery | agents/support_agent.py:79-273 | a query needing a user id without one gets the request and touches nothing; past that, any account, transaction or transfer keyword goes to the data branch, else a ticket keyword to the ticket branch, else the general answer; tools run only with a user id; a ticket is opened exactly on the ticket branch with all three fields; the store changes only by that one appended ticket |
| UserStore.GetUserById | tools/user_store.py:46-51 | none exactly when no user has that id; otherwise a user of the store |
| UserStore.FirstUser | tools/user_store.py:48-51 | the scan returns a listed user with the id, or none when there is no such user |
| UserStore.TransactionsOf | tools/user_store.py:55-58 | exactly the transactions of that user |
| UserStore.TransactionsOfAppend | tools/user_store.py:55-58 | the filter distributes over concatenation, so it keeps store order and multiplicity |
| UserStore.PyPrefix | tools/user_store.py:66 | `s[:n]` is a prefix of `s`, of length n when 0 ≤ n ≤ len(s), and all of `s` when n is larger |
| UserStore.NewestFirst | tools/user_store.py:61-64 | a permutation, sorted by `created_at` non-increasing, keeping the input order among equal keys |
| UserStore.GetUserTransactions | tools/user_store.py:53-66 | only that user's transactions, at most `limit` of them (exactly `min(limit, n)`), newest first, a prefix of the stable sort |
| UserStore.GetUserSupportTickets | tools/user_store.py:68-73 | exactly the tickets of that user |
| UserStore.TicketsOfAppend | tools/user_store.py:68-73 | the ticket filter distributes over concatenation, so it keeps store order and multiplicity |
| UserStore.MaxTicketNumber | tools/user_store.py:83-92 | at least 0 and at least every numeric suffix of a "ticket" id |
| UserStore.MaxTicketNumberAttained | tools/user_store.py:83-92 | the maximum is 0 or the number of some existing ticket |
| UserStore.TicketId | tools/user_store.py:94 | "ticket" followed by at least three digits, whose number parses back |
| UserStore.IdAboveIsFresh | tools/user_store.py:83-94 | the id built from a number above every existing suffix differs from every existing ticket id |
| UserStore.NewTicket | tools/user_store.py:94-104 | the new ticket has id "ticket" + the zero-filled `m + 1`, the caller's fields, status "open", priority "medium", and an id no existing ticket has |
| UserStore.CreatedTicketId | tools/user_store.py:83-94 | a created ticket is numbered one above the highest ticket number in use |
| UserStore.CreateSupportTicket | tools/user_store.py:75-119 | none, with the store unchanged, exactly when the user is missing; otherwise one ticket appended at the end, the `NewTicket` built from the highest ticket number in use, with a fresh id, status "open", priority "medium" and the given user, subject and description; users and transactions unchanged |
| UserStore.SuggestFrom | tools/user_store.py:299-303 | the tools whose keywords occur, in metadata order, each once |
| UserStore.GetToolSuggestions | tools/user_store.py:294-305 | a tool is suggested exactly when one of its keywords is in the lower-cased query; in metadata order, each at most once |
| UserStore.GroupedSwap | tools/user_store.py:140 | swapping the separator in grouped digits yields the same grouping with the other separator |
| UserStore.FormatBRL | tools/user_store.py:140 | the rendering is the Brazilian one: '.' between thousands groups and ',' before the two cent digits |
| UserStore.FormatBRLIsBrazilian | tools/user_store.py:140 | the three sequential replacements on the en-US rendering amount to swapping ',' and '.', giving the Brazilian rendering |
| UserStore.FormatBRLExample | tools/user_store.py:140 | 1500.00 renders as "R$ 1.500,00" |
| UserStore.GetAccountDetails | tools/user_store.py:123-167 | the not-found message for an unknown user; otherwise the account card with the Brazilian balance and the status line |
| UserStore.GetRecentTransactions | tools/user_store.py:170-220 | the not-found message for an unknown user; the empty-list message when there are no transactions; otherwise the header followed by one block per listed transaction |
| UserStore.OpenSupportTicket | tools/user_store.py:223-247 | the not-found message for an unknown user; otherwise one ticket appended for that user and subject, whose id the message reports |
| Sorting.SortDescStable | tools/user_store.py:61-64 | among elements with equal key, the sort keeps the input order |
| Sorting.SortDescSorted | tools/user_store.py:61-64 | the sort is non-increasing by key |
| Sorting.SortDescPermutes | tools/user_store.py:61-64 | the sort is a permutation |
| Numbers.ParseZFilledNat | tools/user_store.py:89-94 | `int()` of a zero-filled decimal gives back the number |
| Locale.EnglishTestsDiffer | agents/knowledge_agent.py:210-260 | the primary-subtag test and the `startswith("en")` test disagree on "en_US" |
| Text.ReplaceIsSplitJoin | agents/personality.py:68-69 | `s.replace(pat, rep)` equals `rep.join(s.split(pat))` |
| Text.TitleOfLowerWord | tools/user_store.py:164 | `title()` of a lower-case ASCII word capitalises its first letter and keeps the rest |
| Personality.ReplaceAllAbsent | agents/personality.py:66-69 | text holding none of the keys passes through the replacements unchanged |
| Personality.Enabled | agents/personality.py:14 | the layer is on exactly when `PERSONALITY` is unset or one of "on", "On", "oN", "ON" |
| Personality.ReplaceAllIsSplitJoin | agents/personality.py:66-69 | the sequential replacements agree with replacing each key through `split` and `join` |
| Personality.ApplyAdjustments | agents/personality.py:64-75 | the split/join replacements in table order form a prefix of the result; the closing is appended exactly when none of the closing words is present, so the result signs off either way |
| Personality.PlainTextGainsClosing | agents/personality.py:64-75 | text without any replaced word or closing gains exactly the closing |
| Personality.ContextualTone | agents/personality.py:77-95 | the support prefix exactly when a support answer mentions "problema" or "erro"; else the knowledge prefix exactly when a knowledge answer is below 0.5; the suffix exactly below 0.3; the text between them unchanged; a confidence that is not a number fails the step |
| Personality.Punctuate | agents/personality.py:111-113 | a full stop is added unless the text is empty or already ends in '.', '!' or '?' |
| Personality.CleanLines | agents/personality.py:100-106 | only non-empty stripped lines remain, never more than there were |
| Personality.FormatResponse | agents/personality.py:97-115 | the output has no empty line, every line is stripped, and non-empty output ends in '.', '!' or '?' |
| Personality.PunctuatedLinesFormatted | agents/personality.py:108-113 | good lines, joined with newlines and punctuated, are formatted |
| Personality.FormattedIsFixed | agents/personality.py:97-115 | formatted text is left as it is |
| Personality.FormatIdempotent | agents/personality.py:97-115 | formatting twice is formatting once |
| Personality.AdjustResponse | agents/personality.py:42-62 | disabled returns the input unchanged; enabled without a context, the formatted adjustments; with a context, the formatted toned adjustments, or the input when the tone step fails; the output is formatted whenever the step succeeds |

## Left out

- File I/O: loading and saving the data file, and path probing. Each tool
  function re-reads the file on every call. Here the data is a `Store` value
  threaded through the calls.
- The clock: `datetime.now()` is the `now` parameter.
- The language detector, the language models and the retriever are outside
  calls. They are function-valued `Backend` fields, with `Outcome` standing
  for "may raise". The vector store's size is one stored `Outcome<int>`: the
  model assumes every `_collection.count()` call returns the same result.
- The regular-expression engine is an oracle, `Router.Finder`. The only
  property assumed of it is `Router.Sound`. The pattern text is kept
  verbatim but not interpreted.
- Python's `float()` on the confidence text is the `parseFloat` oracle.
  NaN and infinities are not modelled.
- Floating-point rounding of balances and amounts: money is integer cents.
- Unicode case mapping beyond Latin-1: `lower` and `title` are exact for
  ASCII and Latin-1 and leave other characters unchanged.
- Prompt construction, `get_agent_capabilities`, the `Tool` objects, the
  system messages, the tone guidelines, and logging.
- Tool suggestions: `process_query` computes them only to log them. They are
  modelled as `UserStore.GetToolSuggestions` and used nowhere else.
- Missing dictionary fields: a record with a field absent is not modelled;
  every record has all its fields.
- An empty user record: `if not user` treats a user given as an empty dict
  as missing. Users here are never empty.
- Exceptions raised while building the retriever or the QA chain are folded
  into the `answer` outcome.
- The transfer-diagnostics `except` path is left out. It catches errors of
  the data file, which the model cannot raise.
- The web server passes a `lang=` keyword that `adjust_response` does not
  accept. The personality layer is modelled by its own signature.
- The two-way " e "/" and " split is tried only when the split patterns
  found at least one position. This is the code's order, and
  `Router.SplitMultiIntent` follows it.
- Router.Route: the lower bound 0.24 on the confidence is stated only when
  the model classifier is not configured. A configured model's confidence has
  no lower clamp, so no bound holds.
- Router.RouteQuery: states the language, the store and the upper bound, not
  the single/multi split, which `Router.Route` states.
- Router.SplitMultiIntent: states fragment count and length, not the exact
  text of each fragment.
- UserStore.GetAccountDetails: states the header, the balance line and the
  status line, not the full card text.
- UserStore.GetRecentTransactions: states the block structure, not the text
  inside each block.
- Support.TransferTemplate: states what the template reports (status or
  balance), not the full wording.
- Support.DiagnoseTransfersFor: the not-found message's text is not stated.
- Knowledge.HandleNoRelevant: the decline answer's text comes from the
  model and is passed through unchanged. Its wording is not modelled.
- Knowledge.CalculateConfidence: confidences are exact reals, not IEEE
  doubles. At a threshold this changes the outcome: one retrieved document
  of 200 characters gives Python 0.2 + 0.1 = 0.30000000000000004, which
  passes the router's `> 0.3`, while the model computes exactly 0.3 and
  `Router.RouteUnknown` goes to support.
- Router.RouteUnknown: compares the exact-real confidence with 0.3, so the
  floating-point boundary case above is routed differently.
- Support.ExtractLimit: digits are ASCII `0`-`9`. Python's `\d` and `int()`
  also accept other Unicode decimal digits: "mostre ٣ transações" gives
  limit 3 in Python and 5 here. A first digit run longer than 4300 digits
  is parsed here, while Python's `int()` raises `ValueError`, which
  `_extract_limit` does not catch.
- Support.ExtractLimitOf: the round trip is stated for ASCII digits only,
  for the reason above.
- Numbers.ParseInt: accepts ASCII digits only, for the reason above. It also
  has no length limit, while CPython's `int()` raises `ValueError` on more
  than 4300 digits. So a ticket id with a longer suffix counts toward the
  maximum here, where `create_support_ticket` skips it.
- Knowledge.AvailableWithoutContent: relies on the single stored count. In
  Python, `_collection.count()` runs at initialisation and again on every
  query, and the model assumes both calls return the same number.

=== FILE: knowledge.dfy ===
/** The knowledge responder: retrieval-augmented answers over the product
    pages, with a chain of fallbacks whose confidence bands are fixed. The
    vector store, the retriever, the question-answering chain and the
    language model are outside calls, given as `Backend` fields. */
module Knowledge {
  import opened Wrappers
  import opened Text
  import opened Reals
  import opened Locale

  /** A retrieved chunk: its text and the `source`/`title` metadata, with
      "" standing for a missing entry. */
  datatype Doc = Doc(content: string, url: string, title: string)

  /** What the question-answering chain returns: the `result` entry, if
      present, and the source documents. */
  datatype QaAnswer = QaAnswer(result: Option<string>, sourceDocs: seq<Doc>)

  /** The vector store as loaded; `count` is the result of the collection
      size call, the same at initialisation and at every query. */
  datatype VectorStore = VectorStore(count: Outcome<int>)

  /** The outside calls, each a function of what it is given. `answer`
      and `decline` take the query and the language tag. */
  datatype Backend = Backend(
    vectorStore: Option<VectorStore>,
    retrieve: string -> Outcome<seq<Doc>>,
    answer: (string, string) -> Outcome<QaAnswer>,
    decline: (string, string) -> Outcome<string>)

  /** A response: answer text, formatted source lines, confidence and the
      diagnostic note the fallback tiers attach. */
  datatype KnowledgeResult = KnowledgeResult(
    answer: string, sources: seq<string>, confidence: real, note: Option<string>)

  const NoContentConfidence: real := 0.05
  const DeclineConfidence: real := 0.1
  const FallbackConfidence: real := 0.2

  const NoContentNote := "Vector store content unavailable."
  const DeclineNote := "No relevant RAG content found; LLM generated off-topic response."
  const FallbackNote := "Fallback response - all methods failed"

  /** "Desculpe, não consegui processar sua pergunta." */
  const DefaultAnswer := "Desculpe, " + RefusalPhrases[1] + " sua pergunta."
  const SourcesHeading := "\n\n📚 **Fontes:**\n"

  // ---------------------------------------------------------------------
  // Availability

  /** `_initialize_vectorstore`: a store whose count raises or is zero is
      dropped. */
  function InitVectorStore(loaded: Outcome<VectorStore>): (vs: Option<VectorStore>)
    ensures vs.Some? <==> loaded.Returned? && loaded.value.count.Returned? && loaded.value.count.value != 0
    ensures vs.Some? ==> vs.value == loaded.value
  {
    match loaded
    case Raised => None
    case Returned(v) =>
      match v.count
      case Raised => None
      case Returned(n) => if n == 0 then None else Some(v)
  }

  /** `is_available` */
  predicate IsAvailable(b: Backend)
    ensures HasSufficientContent(b.vectorStore) ==> IsAvailable(b)
  {
    b.vectorStore.Some?
  }

  /** `_has_sufficient_content`: more than ten documents, and a count that
      raises counts as too few. */
  predicate HasSufficientContent(vs: Option<VectorStore>) {
    vs.Some? && vs.value.count.Returned? && vs.value.count.value > 10
  }

  // ---------------------------------------------------------------------
  // Answer checks and sources

  const RefusalPhrases: seq<string> := [
    "não tenho acesso", "não consegui processar", "não tenho informações",
    "não há informações suficientes", "i don't have access", "i don't have information",
    "no context provided", "no information available",
    "só posso responder", "i can only answer",
    "não posso responder", "i cannot answer"]

  /** `_is_answer_insufficient`: the lower-cased answer holds a refusal phrase. */
  predicate IsAnswerInsufficient(answer: string) {
    ContainsAny(Lower(answer), RefusalPhrases)
  }

  /** Any answer that quotes a refusal phrase, in any mix of cases, reads
      as a refusal, whatever surrounds it. */
  lemma {:induction false} QuotedRefusalIsInsufficient(a: string, x: string, b: string, k: nat)
    requires k < |RefusalPhrases| && Lower(x) == RefusalPhrases[k]
    ensures IsAnswerInsufficient(a + x + b)
  {
    LowerAppend(a + x, b);
    LowerAppend(a, x);
    ContainsMiddle(Lower(a), RefusalPhrases[k], Lower(b));
    RefusalFound(a + x + b, k);
  }

  /** "não consegui processar" is written in lower case, so quoted as it
      is it reads as a refusal. */
  lemma RefusalIsLower()
    ensures Lower(RefusalPhrases[1]) == RefusalPhrases[1]
  {
    LowerUnchanged(RefusalPhrases[1]);
  }

  lemma RefusalFound(s: string, k: nat)
    requires k < |RefusalPhrases| && Contains(Lower(s), RefusalPhrases[k])
    ensures IsAnswerInsufficient(s)
  {
  }

  /** Lower-casing an answer first does not change the verdict. */
  lemma {:induction false} InsufficientIgnoresCase(answer: string)
    ensures IsAnswerInsufficient(Lower(answer)) <==> IsAnswerInsufficient(answer)
  {
    assert Lower(Lower(answer)) == Lower(answer);
  }

  /** The default answer of a chain without `result` reads as a refusal. */
  lemma {:induction false} DefaultAnswerIsInsufficient()
    ensures IsAnswerInsufficient(DefaultAnswer)
  {
    RefusalIsLower();
    QuotedRefusalIsInsufficient("Desculpe, ", RefusalPhrases[1], " sua pergunta.", 1);
  }

  /** The documents `_format_sources` keeps: those with a URL not in `seen`
      and not carried by an earlier document, in input order. */
  function KeptSources(docs: seq<Doc>, seen: set<string>): (r: seq<Doc>)
    ensures |r| <= |docs|
    ensures forall k :: 0 <= k < |r| ==> r[k] in docs && r[k].url != "" && r[k].url !in seen
    ensures Subsequence(r, docs)
    decreases |docs|
  {
    if docs == [] then []
    else
      var d := docs[0];
      var keep := d.url != "" && d.url !in seen;
      var rest := KeptSources(docs[1..], if keep then seen + {d.url} else seen);
      assert forall x :: x in docs[1..] ==> x in docs;
      if keep then
        assert ([d] + rest)[1..] == rest;
        [d] + rest
      else
        rest
  }

  /** `a` is `b` with some elements left out, the rest in their order. */
  predicate Subsequence<T(==)>(a: seq<T>, b: seq<T>)
    decreases |b|
  {
    if a == [] then true
    else if b == [] then false
    else (a[0] == b[0] && Subsequence(a[1..], b[1..])) || Subsequence(a, b[1..])
  }

  /** `x` occurs in `docs` with no earlier document sharing its URL. */
  predicate FirstWithUrl(docs: seq<Doc>, x: Doc) {
    exists i :: 0 <= i < |docs| && docs[i] == x && forall j :: 0 <= j < i ==> docs[j].url != x.url
  }

  /** Every document of `r` is the first in `docs` to carry its URL. */
  predicate AllFirstWithUrl(docs: seq<Doc>, r: seq<Doc>) {
    forall k :: 0 <= k < |r| ==> FirstWithUrl(docs, r[k])
  }

  /** Some document of `r` carries `url`. */
  predicate HasUrl(r: seq<Doc>, url: string) {
    exists k :: 0 <= k < |r| && r[k].url == url
  }

  /** No two documents of `r` share a URL. */
  predicate DistinctUrls(r: seq<Doc>) {
    forall i, j :: 0 <= i < j < |r| ==> r[i].url != r[j].url
  }

  /** No URL is kept twice. */
  lemma {:induction false} KeptSourcesDistinct(docs: seq<Doc>, seen: set<string>)
    ensures DistinctUrls(KeptSources(docs, seen))
    decreases |docs|
  {
    if docs != [] {
      var r := KeptSources(docs, seen);
      var d := docs[0];
      var keep := d.url != "" && d.url !in seen;
      var seen' := if keep then seen + {d.url} else seen;
      var rest := KeptSources(docs[1..], seen');
      KeptSourcesDistinct(docs[1..], seen');
      if keep {
        assert r == [d] + rest;
        forall i, j | 0 <= i < j < |r| ensures r[i].url != r[j].url {
          assert r[j] == rest[j - 1];
          if i > 0 {
            assert r[i] == rest[i - 1];
          } else {
            assert rest[j - 1].url !in seen';
          }
        }
      }
    }
  }

  /** Every document with a fresh URL is represented by a kept document
      with the same URL. */
  lemma {:induction false} KeptSourcesCover(docs: seq<Doc>, seen: set<string>, i: nat)
    requires i < |docs| && docs[i].url != "" && docs[i].url !in seen
    ensures HasUrl(KeptSources(docs, seen), docs[i].url)
    decreases |docs|
  {
    var r := KeptSources(docs, seen);
    var d := docs[0];
    var keep := d.url != "" && d.url !in seen;
    var seen' := if keep then seen + {d.url} else seen;
    var rest := KeptSources(docs[1..], seen');
    if keep && d.url == docs[i].url {
      assert r == [d] + rest;
      assert r[0].url == docs[i].url;
    } else {
      assert i != 0;
      assert docs[1..][i - 1] == docs[i];
      KeptSourcesCover(docs[1..], seen', i - 1);
      var k :| 0 <= k < |rest| && rest[k].url == docs[i].url;
      if keep {
        assert r == [d] + rest;
        assert r[k + 1] == rest[k];
      } else {
        assert r == rest;
      }
    }
  }

  /** Each kept document is the first in the input to carry its URL. */
  lemma {:induction false} KeptSourcesFirst(docs: seq<Doc>, seen: set<string>)
    ensures AllFirstWithUrl(docs, KeptSources(docs, seen))
    decreases |docs|
  {
    if docs != [] {
      var r := KeptSources(docs, seen);
      var d := docs[0];
      var keep := d.url != "" && d.url !in seen;
      var seen' := if keep then seen + {d.url} else seen;
      var rest := KeptSources(docs[1..], seen');
      KeptSourcesFirst(docs[1..], seen');
      forall k | 0 <= k < |rest| ensures FirstWithUrl(docs, rest[k]) {
        var x := rest[k];
        assert x.url !in seen' && x.url != "";
        assert x.url != d.url;
        assert FirstWithUrl(docs[1..], x);
        var i :| 0 <= i < |docs[1..]| && docs[1..][i] == x
                 && forall j :: 0 <= j < i ==> docs[1..][j].url != x.url;
        assert docs[i + 1] == x;
        forall j | 0 <= j < i + 1 ensures docs[j].url != x.url {
          if j > 0 {
            assert docs[j] == docs[1..][j - 1];
          }
        }
      }
      if keep {
        assert r == [d] + rest;
        assert FirstWithUrl(docs, d) by {
          assert docs[0] == d;
        }
        forall k | 0 <= k < |r| ensures FirstWithUrl(docs, r[k]) {
          if k > 0 {
            assert r[k] == rest[k - 1];
          }
        }
      } else {
        assert r == rest;
      }
    }
  }

  /** One source line: `- [title](url)` with a title, else `- url`. */
  function SourceLine(d: Doc): (line: string)
    ensures IsPrefix("- ", line)
  {
    if d.title != "" then "- [" + d.title + "](" + d.url + ")" else "- " + d.url
  }

  /** A source line shows the document's URL, and its title when there
      is one. */
  lemma {:induction false} SourceLineShows(d: Doc)
    ensures Contains(SourceLine(d), d.url)
    ensures d.title != "" ==> Contains(SourceLine(d), d.title)
  {
    if d.title != "" {
      LinkLine(d.title, d.url);
    } else {
      ContainsMiddle("- ", d.url, "");
      assert "- " + d.url + "" == "- " + d.url;
    }
  }

  lemma {:induction false} LinkLine(t: string, u: string)
    ensures Contains("- [" + t + "](" + u + ")", u) && Contains("- [" + t + "](" + u + ")", t)
  {
    var open, mid, close := "- [", "](", ")";
    ContainsMiddle(open + t + mid, u, close);
    assert open + t + mid + u + close == open + t + (mid + u + close);
    ContainsMiddle(open, t, mid + u + close);
  }

  /** `_format_sources`: one line per kept document, in input order. */
  function FormatSources(docs: seq<Doc>): (r: seq<string>)
    ensures |r| == |KeptSources(docs, {})| <= |docs|
    ensures Subsequence(KeptSources(docs, {}), docs)
    ensures forall k :: 0 <= k < |r| ==> r[k] == SourceLine(KeptSources(docs, {})[k])
  {
    var kept := KeptSources(docs, {});
    seq(|kept|, k requires 0 <= k < |kept| => SourceLine(kept[k]))
  }

  /** Every document with a URL is represented, by the first document that
      carries that URL, and no URL is listed twice. */
  lemma {:induction false} FormatSourcesCovers(docs: seq<Doc>, i: nat)
    requires i < |docs| && docs[i].url != ""
    ensures exists k :: 0 <= k < |KeptSources(docs, {})| && KeptSources(docs, {})[k].url == docs[i].url
                        && FirstWithUrl(docs, KeptSources(docs, {})[k])
    ensures DistinctUrls(KeptSources(docs, {}))
  {
    var kept := KeptSources(docs, {});
    KeptSourcesCover(docs, {}, i);
    KeptSourcesFirst(docs, {});
    KeptSourcesDistinct(docs, {});
    var k :| 0 <= k < |kept| && kept[k].url == docs[i].url;
    assert FirstWithUrl(docs, kept[k]);
  }

  function TotalContentLength(docs: seq<Doc>): nat {
    if docs == [] then 0 else |docs[0].content| + TotalContentLength(docs[1..])
  }

  /** `_calculate_confidence`: 0.2 per document up to 1, plus up to 0.3
      for content length, capped at 1. */
  function CalculateConfidence(docs: seq<Doc>): (c: real)
    ensures docs == [] ==> c == 0.0
    ensures docs != [] ==> 0.2 <= c <= 1.0
    ensures |docs| >= 5 ==> c == 1.0
  {
    if docs == [] then 0.0
    else
      var base := MinReal((|docs| as real) * 0.2, 1.0);
      var content := MinReal((TotalContentLength(docs) as real) / 2000.0, 0.3);
      MinReal(base + content, 1.0)
  }

  // ---------------------------------------------------------------------
  // Fallback tiers

  const NoContentAnswerEn := "I'm sorry, my knowledge base is currently unavailable, so I can't answer your question at the moment. Please try again in a few moments. Thank you for your patience! 🙏"
  const NoContentAnswerPt := "Desculpe, minha base de conhecimento está indisponível no momento, então não consigo responder sua pergunta agora. Por favor, tente novamente em alguns instantes. Agradeço a sua paciência! 🙏"
  const FallbackAnswerEn := "I'm sorry, I couldn't find specific information about your question. I recommend contacting InfinitePay support for personalized assistance."
  const FallbackAnswerPt := "Desculpe, não consegui encontrar informações específicas sobre sua pergunta. Recomendo entrar em contato com o suporte da InfinitePay para obter ajuda personalizada."

  /** `_handle_no_content`: a fixed apology, in English only when the
      primary subtag is "en". */
  function HandleNoContent(lang: string): (r: KnowledgeResult)
    ensures r.confidence == NoContentConfidence && r.sources == [] && r.note == Some(NoContentNote)
    ensures r.answer == if IsEnglish(lang) then NoContentAnswerEn else NoContentAnswerPt
  {
    KnowledgeResult(if IsEnglish(lang) then NoContentAnswerEn else NoContentAnswerPt,
                    [], NoContentConfidence, Some(NoContentNote))
  }

  /** `_handle_fallback_response`: a fixed apology, in English whenever the
      tag starts with "en". */
  function HandleFallback(lang: string): (r: KnowledgeResult)
    ensures r.confidence == FallbackConfidence && r.sources == [] && r.note == Some(FallbackNote)
    ensures r.answer == if StartsWithEn(lang) then FallbackAnswerEn else FallbackAnswerPt
  {
    KnowledgeResult(if StartsWithEn(lang) then FallbackAnswerEn else FallbackAnswerPt,
                    [], FallbackConfidence, Some(FallbackNote))
  }

  /** `_handle_no_relevant_content`: the model's polite refusal, stripped,
      or the final fallback when the call raises. */
  function HandleNoRelevant(b: Backend, query: string, lang: string): (r: KnowledgeResult)
    ensures r.sources == []
    ensures b.decline(query, lang).Returned? ==>
              r.confidence == DeclineConfidence && r.answer == Strip(b.decline(query, lang).value)
    ensures b.decline(query, lang).Raised? ==> r == HandleFallback(lang)
  {
    match b.decline(query, lang)
    case Returned(text) => KnowledgeResult(Strip(text), [], DeclineConfidence, Some(DeclineNote))
    case Raised => HandleFallback(lang)
  }

  // ---------------------------------------------------------------------
  // The responder

  /** `process_query` */
  function ProcessQuery(b: Backend, query: string, lang: string): (r: KnowledgeResult)
    ensures 0.05 <= r.confidence <= 1.0
    ensures !HasSufficientContent(b.vectorStore) ==> r == HandleNoContent(lang)
    ensures r.sources != [] ==> r.note.None?
  {
    if !HasSufficientContent(b.vectorStore) then HandleNoContent(lang)
    else
      match b.retrieve(query)
      case Raised => HandleNoRelevant(b, query, lang)
      case Returned(docs) =>
        if docs == [] then HandleNoRelevant(b, query, lang)
        else
          match b.answer(query, lang)
          case Raised => HandleFallback(lang)
          case Returned(qa) =>
            var answer := qa.result.GetOr(DefaultAnswer);
            if qa.sourceDocs == [] || IsAnswerInsufficient(answer) then HandleNoRelevant(b, query, lang)
            else
              var sources := FormatSources(qa.sourceDocs);
              var text := if sources != [] then answer + SourcesHeading + Join(sources, "\n") else answer;
              KnowledgeResult(text, sources, CalculateConfidence(qa.sourceDocs), None)
  }

  /** The tiers in full: which outside outcome leads to which confidence. */
  lemma {:induction false} ProcessQueryTiers(b: Backend, query: string, lang: string)
    requires HasSufficientContent(b.vectorStore)
    ensures var r := ProcessQuery(b, query, lang);
      && ((b.retrieve(query).Raised? || b.retrieve(query).value == []) ==> r == HandleNoRelevant(b, query, lang))
      && ((b.retrieve(query).Returned? && b.retrieve(query).value != [] && b.answer(query, lang).Raised?)
            ==> r == HandleFallback(lang))
      && ((b.retrieve(query).Returned? && b.retrieve(query).value != [] && b.answer(query, lang).Returned?) ==>
            var qa := b.answer(query, lang).value;
            var answer := qa.result.GetOr(DefaultAnswer);
            if qa.sourceDocs == [] || IsAnswerInsufficient(answer) then r == HandleNoRelevant(b, query, lang)
            else r.note.None? && r.confidence == CalculateConfidence(qa.sourceDocs)
                 && r.sources == FormatSources(qa.sourceDocs)
                 && IsPrefix(answer, r.answer)
                 && (r.sources != [] <==> r.answer != answer))
  {
    var r := ProcessQuery(b, query, lang);
    if b.retrieve(query).Returned? && b.retrieve(query).value != [] && b.answer(query, lang).Returned? {
      var qa := b.answer(query, lang).value;
      var answer := qa.result.GetOr(DefaultAnswer);
      if !(qa.sourceDocs == [] || IsAnswerInsufficient(answer)) {
        var sources := FormatSources(qa.sourceDocs);
        if sources != [] {
          var tail := SourcesHeading + Join(sources, "\n");
          assert r.answer == answer + tail;
          assert |r.answer| > |answer|;
        }
      }
    }
  }

  /** Only the answered tier carries sources, and it needs a chain answer
      that is not a refusal. */
  lemma {:induction false} SourcesOnlyWhenAnswered(b: Backend, query: string, lang: string)
    ensures ProcessQuery(b, query, lang).sources != [] ==>
      && HasSufficientContent(b.vectorStore)
      && b.retrieve(query).Returned? && b.retrieve(query).value != []
      && b.answer(query, lang).Returned?
      && !IsAnswerInsufficient(b.answer(query, lang).value.result.GetOr(DefaultAnswer))
  {
  }

  /** A store that initialisation keeps, holding between one and ten
      documents, is available, yet every query gets the no-content answer. */
  lemma {:induction false} AvailableWithoutContent(b: Backend, v: VectorStore, n: int, query: string, lang: string)
    requires v.count == Returned(n) && 1 <= n <= 10
    requires b.vectorStore == InitVectorStore(Returned(v))
    ensures IsAvailable(b)
    ensures ProcessQuery(b, query, lang).confidence == NoContentConfidence
  {
  }

  /** A store `_initialize_vectorstore` kept is available. */
  lemma {:induction false} InitKeepsNonEmpty(v: VectorStore, n: int)
    requires v.count == Returned(n) && n != 0
    ensures InitVectorStore(Returned(v)) == Some(v)
  {
  }
}

=== FILE: locale.dfy ===
/** The two ways the responders decide that a language tag means English. */
module Locale {
  import opened Text

  /** `lang.split('-')[0]`: the primary subtag. */
  function PrimaryTag(lang: string): (tag: string)
    ensures '-' !in tag
    ensures IsPrefix(tag, lang)
  {
    SplitOn(lang, '-')[0]
  }

  /** `lang.split('-')[0] == "en"`: the test of the router, the knowledge
      responder and most support templates. */
  predicate IsEnglish(lang: string) {
    PrimaryTag(lang) == "en"
  }

  /** `lang.startswith("en")`: the test of the transfer templates and the
      final knowledge fallback. It also accepts tags such as "eng" or
      "en_US" that `IsEnglish` rejects. */
  predicate StartsWithEn(lang: string) {
    IsPrefix("en", lang)
  }

  /** Every tag the primary-subtag test accepts also passes the prefix test. */
  lemma {:induction false} EnglishStartsWithEn(lang: string)
    requires IsEnglish(lang)
    ensures StartsWithEn(lang)
  {
  }

  /** The two tests differ: "en_US" starts with "en" but its primary
      subtag is "en_US". */
  lemma {:induction false} EnglishTestsDiffer()
    ensures StartsWithEn("en_US") && !IsEnglish("en_US")
  {
    assert IndexOfChar("en_US", '-') == 5;
  }
}

=== FILE: numbers.dfy ===
/** Decimal rendering and parsing of integers: Python's `str(n)`,
    `s.zfill(w)` and `int(s)` for ASCII digits. */
module Numbers {
  import opened Wrappers
  import opened Text

  predicate IsDigit(c: char) {
    '0' <= c <= '9'
  }

  predicate AllDigits(s: string) {
    forall i :: 0 <= i < |s| ==> IsDigit(s[i])
  }

  function DigitChar(d: nat): (c: char)
    requires d < 10
    ensures IsDigit(c)
  {
    ('0' as int + d) as char
  }

  function DigitValue(c: char): (d: nat)
    requires IsDigit(c)
    ensures d < 10
  {
    c as int - '0' as int
  }

  /** `str(n)` for `n >= 0`: decimal digits, no leading zero except for 0. */
  function NatToString(n: nat): (s: string)
    ensures |s| >= 1 && AllDigits(s)
    ensures s[0] == '0' ==> n == 0
  {
    if n < 10 then [DigitChar(n)] else NatToString(n / 10) + [DigitChar(n % 10)]
  }

  /** `str(i)` */
  function IntToString(i: int): string {
    if i < 0 then "-" + NatToString(-i) else NatToString(i)
  }

  /** The number a string of decimal digits denotes (leading zeros allowed). */
  function DigitsValue(s: string): nat
    requires AllDigits(s)
  {
    if s == [] then 0 else 10 * DigitsValue(s[..|s| - 1]) + DigitValue(s[|s| - 1])
  }

  lemma {:induction false} DigitsValueOfNatToString(n: nat)
    ensures DigitsValue(NatToString(n)) == n
  {
    if n >= 10 {
      var s := NatToString(n);
      assert s[..|s| - 1] == NatToString(n / 10);
      DigitsValueOfNatToString(n / 10);
    }
  }

  lemma {:induction false} DigitsValueLeadingZero(s: string)
    requires AllDigits(s)
    ensures DigitsValue("0" + s) == DigitsValue(s)
    decreases |s|
  {
    if s != [] {
      assert ("0" + s)[..|s|] == "0" + s[..|s| - 1];
      DigitsValueLeadingZero(s[..|s| - 1]);
    }
  }

  function Repeat(c: char, k: nat): (r: string)
    ensures |r| == k
    ensures forall i :: 0 <= i < k ==> r[i] == c
  {
    if k == 0 then [] else [c] + Repeat(c, k - 1)
  }

  lemma {:induction false} DigitsValueZeros(k: nat, s: string)
    requires AllDigits(s)
    ensures AllDigits(Repeat('0', k) + s)
    ensures DigitsValue(Repeat('0', k) + s) == DigitsValue(s)
  {
    if k == 0 {
      assert Repeat('0', k) + s == s;
    } else {
      DigitsValueZeros(k - 1, s);
      assert Repeat('0', k) + s == "0" + (Repeat('0', k - 1) + s);
      DigitsValueLeadingZero(Repeat('0', k - 1) + s);
    }
  }

  /** `s.zfill(width)`: pads with '0' on the left, after a leading sign,
      up to `width` characters. */
  function ZFill(s: string, width: nat): (r: string)
    ensures |r| == if |s| >= width then |s| else width
  {
    if |s| >= width then s
    else if s != [] && (s[0] == '+' || s[0] == '-') then [s[0]] + Repeat('0', width - |s|) + s[1..]
    else Repeat('0', width - |s|) + s
  }

  /** Digits with single underscores between them, as `int()` accepts. */
  predicate IsDigitGroups(s: string) {
    && |s| >= 1 && IsDigit(s[0]) && IsDigit(s[|s| - 1])
    && (forall i :: 0 <= i < |s| ==> IsDigit(s[i]) || s[i] == '_')
    && (forall i :: 0 <= i < |s| - 1 ==> s[i] == '_' ==> s[i + 1] != '_')
  }

  function RemoveUnderscores(s: string): (r: string)
    requires forall i :: 0 <= i < |s| ==> IsDigit(s[i]) || s[i] == '_'
    ensures AllDigits(r)
    ensures AllDigits(s) ==> r == s
  {
    if s == [] then []
    else if s[0] == '_' then RemoveUnderscores(s[1..])
    else [s[0]] + RemoveUnderscores(s[1..])
  }

  function ParseUnsigned(s: string): Option<nat> {
    if IsDigitGroups(s) then Some(DigitsValue(RemoveUnderscores(s))) else None
  }

  /** `int(s)`: surrounding whitespace, an optional sign, then decimal
      digits (underscores allowed between digits); `None` where Python
      raises `ValueError`, except that Python also raises on more than
      4300 digits, a limit this model does not have. */
  function ParseInt(s: string): Option<int> {
    ParseSigned(Strip(s))
  }

  /** An optional sign, then digit groups. */
  function ParseSigned(t: string): Option<int> {
    if t != [] && (t[0] == '+' || t[0] == '-') then
      match ParseUnsigned(t[1..])
      case None => None
      case Some(v) =>
        var signed: int := if t[0] == '-' then 0 - (v as int) else v as int;
        Some(signed)
    else
      match ParseUnsigned(t)
      case None => None
      case Some(v) => Some(v)
  }

  lemma {:induction false} ParseUnsignedDigits(s: string)
    requires s != [] && AllDigits(s)
    ensures ParseUnsigned(s) == Some(DigitsValue(s))
  {
    assert IsDigitGroups(s);
  }

  /** A non-empty run of ASCII digits parses to the number it denotes. */
  lemma {:induction false} ParseDigits(s: string)
    requires s != [] && AllDigits(s)
    ensures ParseInt(s) == Some(DigitsValue(s))
  {
    assert IsStripped(s);
    StripOfStripped(s);
    assert IsDigitGroups(s);
  }

  /** `int(str(n).zfill(w)) == n`: zero padding does not change the value. */
  lemma {:induction false} ParseZFilledNat(n: nat, width: nat)
    ensures ParseInt(ZFill(NatToString(n), width)) == Some(n)
  {
    var s := NatToString(n);
    var z := ZFill(s, width);
    var k := if |s| >= width then 0 else width - |s|;
    assert z == Repeat('0', k) + s;
    DigitsValueZeros(k, s);
    DigitsValueOfNatToString(n);
    ParseDigits(z);
  }
}

=== FILE: personality.dfy ===
/** The personality layer: word replacements, a friendly closing, a tone
    prefix or suffix chosen from the response context, and a final clean-up
    of the line layout. */
module Personality {
  import opened Wrappers
  import opened Text

  /** A context value as the layer sees it: a string, a number, or anything
      else (which the confidence comparisons reject). */
  datatype CtxValue = Str(s: string) | Num(x: real) | Other

  type Context = map<string, CtxValue>

  /** `PERSONALITY` (default "on"), compared case-insensitively with "on". */
  predicate Enabled(env: Option<string>)
    ensures Enabled(env) <==> env.None? || env.value in {"on", "On", "oN", "ON"}
  {
    OnSpellings(env.GetOr("on"));
    Lower(env.GetOr("on")) == "on"
  }

  /** The strings whose lower-case form is "on". */
  lemma OnSpellings(v: string)
    ensures Lower(v) == "on" <==> v in {"on", "On", "oN", "ON"}
  {
    if Lower(v) == "on" {
      assert LowerChar(v[0]) == 'o' && LowerChar(v[1]) == 'n';
      assert v == [v[0], v[1]];
    }
    if v in {"on", "On", "oN", "ON"} {
      assert Lower(v)[0] == 'o' && Lower(v)[1] == 'n';
      assert Lower(v) == "on";
    }
  }

  // ---------------------------------------------------------------------
  // Replacements and closing

  /** The replacements, applied in this order. */
  const Adjustments: seq<(string, string)> := [
    ("Olá", "Oi! 👋"),
    ("Prezado", "Oi"),
    ("Senhor(a)", "Você"),
    ("não consigo", "não conseguir"),
    ("problema", "situação"),
    ("erro", "dificuldade"),
    ("entrar em contato", "entrar em contato - estamos aqui para ajudar! 💪"),
    ("aguardar", "aguardar - logo retornaremos")]

  predicate NonEmptyKeys(adj: seq<(string, string)>) {
    forall k :: 0 <= k < |adj| ==> adj[k].0 != []
  }

  /** Each replacement in turn, over the whole text. */
  function ReplaceAll(text: string, adj: seq<(string, string)>): string
    requires NonEmptyKeys(adj)
    decreases |adj|
  {
    if adj == [] then text else ReplaceAll(Replace(text, adj[0].0, adj[0].1), adj[1..])
  }

  /** A text holding none of the keys comes through unchanged. */
  lemma {:induction false} ReplaceAllAbsent(text: string, adj: seq<(string, string)>)
    requires NonEmptyKeys(adj)
    requires forall k :: 0 <= k < |adj| ==> !Contains(text, adj[k].0)
    ensures ReplaceAll(text, adj) == text
    decreases |adj|
  {
    if adj != [] {
      ReplaceAbsent(text, adj[0].0, adj[0].1);
      assert forall k :: 0 <= k < |adj[1..]| ==> adj[1..][k] == adj[k + 1];
      ReplaceAllAbsent(text, adj[1..]);
    }
  }

  /** The same replacements, each written as `rep.join(text.split(key))`. */
  function SplitJoinAll(text: string, adj: seq<(string, string)>): string
    requires NonEmptyKeys(adj)
    decreases |adj|
  {
    if adj == [] then text else SplitJoinAll(Join(SplitStr(text, adj[0].0), adj[0].1), adj[1..])
  }

  /** The replacements agree with their split/join reading. */
  lemma {:induction false} ReplaceAllIsSplitJoin(text: string, adj: seq<(string, string)>)
    requires NonEmptyKeys(adj)
    ensures ReplaceAll(text, adj) == SplitJoinAll(text, adj)
    decreases |adj|
  {
    if adj != [] {
      ReplaceIsSplitJoin(text, adj[0].0, adj[0].1);
      ReplaceAllIsSplitJoin(Replace(text, adj[0].0, adj[0].1), adj[1..]);
    }
  }

  const Closings: seq<string> := ["Obrigado", "Atenciosamente", "Um abraço"]
  const FriendlyClosing := "\n\nConte comigo! 😊"

  /** `_apply_adjustments`: the replacements, then the closing unless the
      text already signs off. */
  function ApplyAdjustments(text: string): (r: string)
    ensures IsPrefix(SplitJoinAll(text, Adjustments), r)
    ensures r == SplitJoinAll(text, Adjustments) <==> ContainsAny(SplitJoinAll(text, Adjustments), Closings)
    ensures r != SplitJoinAll(text, Adjustments) ==> r == SplitJoinAll(text, Adjustments) + FriendlyClosing
    ensures ContainsAny(r, Closings) || IsSuffix(FriendlyClosing, r)
  {
    var replaced := ReplaceAll(text, Adjustments);
    ReplaceAllIsSplitJoin(text, Adjustments);
    PrefixAndSuffix(replaced, FriendlyClosing);
    if ContainsAny(replaced, Closings) then replaced else replaced + FriendlyClosing
  }

  /** `a` starts and `b` ends `a + b`, and `a + b` is `a` only for empty `b`. */
  lemma PrefixAndSuffix(a: string, b: string)
    ensures IsPrefix(a, a) && IsPrefix(a, a + b) && IsSuffix(b, a + b)
    ensures a + b == a <==> b == []
  {
    assert (a + b)[..|a|] == a;
    assert (a + b)[|a + b| - |b|..] == b;
    assert a[..|a|] == a;
    if a + b == a {
      assert |b| == 0;
    }
  }

  /** Text without any replaced word or closing only gains the closing. */
  lemma {:induction false} PlainTextGainsClosing(text: string)
    requires forall k :: 0 <= k < |Adjustments| ==> !Contains(text, Adjustments[k].0)
    requires !ContainsAny(text, Closings)
    ensures ApplyAdjustments(text) == text + FriendlyClosing
  {
    ReplaceAllAbsent(text, Adjustments);
  }

  // ---------------------------------------------------------------------
  // Contextual tone

  const SupportPrefix := "🤝 Entendo sua preocupação. "
  const KnowledgePrefix := "🤔 Deixe-me verificar isso para você. "
  const LowConfidenceSuffix := "\n\nSe precisar de mais detalhes, posso pesquisar mais informações para você! 🔍"

  /** `context.get("agent_used", "")`; a value that is not a string matches
      no agent, like "". */
  function AgentOf(ctx: Context): string {
    if "agent_used" in ctx && ctx["agent_used"].Str? then ctx["agent_used"].s else ""
  }

  /** `context.get("confidence", 1.0)` */
  function ConfidenceOf(ctx: Context): CtxValue {
    if "confidence" in ctx then ctx["confidence"] else Num(1.0)
  }

  /** `_add_contextual_tone`; `None` where comparing a confidence that is
      not a number raises. A support answer that mentions a problem or an
      error, or a knowledge answer below 0.5, gets its prefix; any answer
      below 0.3 gets the offer to search further. */
  function ContextualTone(text: string, ctx: Context): (r: Option<string>)
    ensures r.None? <==> !ConfidenceOf(ctx).Num?
    ensures r.Some? ==>
      var agent := AgentOf(ctx);
      var c := ConfidenceOf(ctx).x;
      var l := Lower(text);
      var support := agent == "support" && (Contains(l, "problema") || Contains(l, "erro"));
      var knowledge := agent == "knowledge" && c < 0.5;
      var pre := if support then SupportPrefix else if knowledge then KnowledgePrefix else "";
      var suf := if c < 0.3 then LowConfidenceSuffix else "";
      && |r.value| == |pre| + |text| + |suf|
      && IsPrefix(pre, r.value)
      && IsSuffix(suf, r.value)
      && r.value[|pre|..|pre| + |text|] == text
  {
    var agent := AgentOf(ctx);
    var conf := ConfidenceOf(ctx);
    var l := Lower(text);
    if !conf.Num? then None
    else
      var pre :=
        if agent == "support" && (Contains(l, "problema") || Contains(l, "erro")) then SupportPrefix
        else if agent == "knowledge" && conf.x < 0.5 then KnowledgePrefix
        else "";
      var suf := if conf.x < 0.3 then LowConfidenceSuffix else "";
      Some(Framed(pre, text, suf))
  }

  /** `text` between `pre` and `suf`, each recoverable from the result. */
  function Framed(pre: string, text: string, suf: string): (r: string)
    ensures |r| == |pre| + |text| + |suf|
    ensures IsPrefix(pre, r) && IsSuffix(suf, r)
    ensures r[|pre|..|pre| + |text|] == text
  {
    var r := pre + text + suf;
    assert r[..|pre|] == pre;
    assert r[|r| - |suf|..] == suf;
    assert r[|pre|..|pre| + |text|] == text;
    r
  }

  // ---------------------------------------------------------------------
  // Formatting

  /** The stripped lines that are not empty. */
  function CleanLines(lines: seq<string>): (r: seq<string>)
    requires forall k :: 0 <= k < |lines| ==> '\n' !in lines[k]
    ensures |r| <= |lines|
    ensures forall k :: 0 <= k < |r| ==> GoodLine(r[k])
  {
    if lines == [] then []
    else
      var l := Strip(lines[0]);
      assert forall j :: 0 <= j < |l| ==> l[j] in lines[0];
      if l == [] then CleanLines(lines[1..]) else [l] + CleanLines(lines[1..])
  }

  /** A line of formatted output: not empty, no surrounding whitespace. */
  predicate GoodLine(l: string) {
    l != [] && IsStripped(l) && '\n' !in l
  }

  predicate IsEndMark(c: char) {
    c == '.' || c == '!' || c == '?'
  }

  /** A full stop unless the text is empty or already ends with a mark. */
  function Punctuate(s: string): (r: string)
    ensures r == [] <==> s == []
    ensures r != [] ==> IsEndMark(r[|r| - 1])
    ensures IsPrefix(s, r) && |r| <= |s| + 1
  {
    if s != [] && !IsEndMark(s[|s| - 1]) then s + "." else s
  }

  /** `_format_response`: the stripped non-empty lines, rejoined, with a
      full stop unless the last already ends with a mark. */
  function FormatResponse(text: string): (r: string)
    ensures IsFormatted(r)
  {
    var lines := CleanLines(SplitOn(text, '\n'));
    PunctuatedLinesFormatted(lines);
    Punctuate(Join(lines, "\n"))
  }

  /** What the formatting produces: empty, or good lines separated by single
      newlines and ending with a mark. */
  predicate IsFormatted(s: string) {
    s == [] || (IsEndMark(s[|s| - 1]) && forall k :: 0 <= k < |SplitOn(s, '\n')| ==> GoodLine(SplitOn(s, '\n')[k]))
  }

  lemma {:induction false} CleanGoodLines(lines: seq<string>)
    requires forall k :: 0 <= k < |lines| ==> GoodLine(lines[k])
    requires forall k :: 0 <= k < |lines| ==> '\n' !in lines[k]
    ensures CleanLines(lines) == lines
    decreases |lines|
  {
    if lines != [] {
      StripOfStripped(lines[0]);
      CleanGoodLines(lines[1..]);
      assert lines == [lines[0]] + lines[1..];
    }
  }

  lemma {:induction false} JoinNonEmpty(lines: seq<string>, sep: string)
    requires lines != [] && lines[0] != []
    ensures Join(lines, sep) != []
  {
    if |lines| > 1 {
      assert Join(lines, sep) == lines[0] + sep + Join(lines[1..], sep);
    }
  }

  /** Good lines, joined and punctuated, are formatted. */
  lemma {:induction false} PunctuatedLinesFormatted(lines: seq<string>)
    requires forall k :: 0 <= k < |lines| ==> GoodLine(lines[k])
    ensures IsFormatted(Punctuate(Join(lines, "\n")))
  {
    var j := Join(lines, "\n");
    var r := Punctuate(j);
    if lines != [] {
      JoinNonEmpty(lines, "\n");
      if IsEndMark(j[|j| - 1]) {
        assert r == j;
        SplitOnJoin(lines, '\n');
      } else {
        var n := |lines|;
        var last := lines[n - 1] + ".";
        var lines' := lines[..n - 1] + [last];
        JoinAppendLast(lines, "\n", ".");
        assert r == Join(lines', "\n");
        assert last[0] == lines[n - 1][0];
        assert GoodLine(last);
        forall k | 0 <= k < n ensures GoodLine(lines'[k]) {
          if k < n - 1 {
            assert lines'[k] == lines[k];
          }
        }
        SplitOnJoin(lines', '\n');
      }
    }
  }

  /** Formatted text is left as it is. */
  lemma {:induction false} FormattedIsFixed(s: string)
    requires IsFormatted(s)
    ensures FormatResponse(s) == s
  {
    var parts := SplitOn(s, '\n');
    JoinSplitOn(s, '\n');
    if s != [] {
      CleanGoodLines(parts);
    } else {
      assert parts == [s];
      assert CleanLines(parts) == [];
    }
  }

  /** Formatting twice is formatting once. */
  lemma {:induction false} FormatIdempotent(text: string)
    ensures FormatResponse(FormatResponse(text)) == FormatResponse(text)
  {
    FormattedIsFixed(FormatResponse(text));
  }

  // ---------------------------------------------------------------------
  // The layer

  /** `adjust_response`: nothing when `PERSONALITY` is off; otherwise the
      replacements and closing, the contextual tone for a non-empty context,
      and the formatting, except that a failing tone step returns the
      response as it came. */
  function AdjustResponse(env: Option<string>, response: string, context: Option<Context>): (r: string)
    ensures !Enabled(env) ==> r == response
    ensures Enabled(env) && (context.None? || context.value == map[]) ==>
              r == FormatResponse(ApplyAdjustments(response))
    ensures Enabled(env) && context.Some? && context.value != map[] ==>
              var toned := ContextualTone(ApplyAdjustments(response), context.value);
              && (toned.None? ==> r == response)
              && (toned.Some? ==> r == FormatResponse(toned.value))
    ensures Enabled(env) && context.Some? && context.value != map[] && !ConfidenceOf(context.value).Num? ==>
              r == response
    ensures Enabled(env) && (context.None? || context.value == map[] || ConfidenceOf(context.value).Num?) ==>
              IsFormatted(r)
  {
    if !Enabled(env) then response
    else
      var adjusted := ApplyAdjustments(response);
      if context.Some? && context.value != map[] then
        match ContextualTone(adjusted, context.value)
        case None => response
        case Some(t) => FormatResponse(t)
      else
        FormatResponse(adjusted)
  }
}

=== FILE: reals.dfy ===
/** Python's `min` and `max` on two numbers, shared by the confidence
    computations of the router and the knowledge agent. */
module Reals {
  function MinReal(a: real, b: real): (r: real)
    ensures r <= a && r <= b && (r == a || r == b)
  {
    if a <= b then a else b
  }

  function MaxReal(a: real, b: real): (r: real)
    ensures r >= a && r >= b && (r == a || r == b)
  {
    if a >= b then a else b
  }
}

=== FILE: router.dfy ===
/** The query router: escalation check, intent classification (the model
    classifier's text output, else pattern scores, else keywords), the
    conjunction splitter, and the dispatch that sends each query or each
    fragment of a split query to the support or the knowledge responder. */
module Router {
  import opened Wrappers
  import opened Text
  import opened Numbers
  import opened Reals
  import opened Locale
  import opened UserStore
  import Support
  import Knowledge

  // ---------------------------------------------------------------------
  // The regular-expression engine

  /** A match: the half-open range of the text it covers. */
  datatype Span = Span(start: nat, end: nat)

  /** `re.finditer(pattern, text)`: the matches, left to right. */
  type Finder = (string, string) -> seq<Span>

  /** `re.search(pattern, text)` succeeds. */
  predicate Search(find: Finder, pattern: string, text: string) {
    find(pattern, text) != []
  }

  /** What the engine guarantees for the patterns used here, none of which
      matches the empty string: every match is non-empty and lies inside
      the text. */
  ghost predicate Sound(find: Finder) {
    forall p, t, k :: 0 <= k < |find(p, t)| ==> find(p, t)[k].start < find(p, t)[k].end <= |t|
  }

  // ---------------------------------------------------------------------
  // Pattern tables

  const SupportPatterns: seq<string> := [
    "saldo\\b", "conta\\b", "extrato\\b", "transações?\\b", "movimentações?\\b",
    "histórico\\b", "pagamentos?\\b", "saques?\\b", "depósitos?\\b",
    "transferências?\\b", "transfer\\b", "transfers\\b", "pix\\b",
    "meus?\\s+dados\\b", "informações?\\s+d[ao]\\s+cadastro\\b", "perfil\\b",
    "meu\\s+id\\b", "minha\\s+conta\\b",
    "suporte\\b", "ajuda\\b", "problema\\b", "dúvida\\b", "tickets?\\b",
    "reclamação\\b", "assistência\\b", "atendimento\\b", "falar\\s+com\\s+atendente\\b",
    "não\\s+consigo\\b", "erro\\b", "falha\\b", "problema\\s+com\\b", "minha\\s+maquininha\\b",
    "can't\\b", "cannot\\b", "error\\b", "issue\\b", "problem\\b", "help\\b", "my\\s+account\\b",
    "card\\s+reader\\b", "not\\s+working\\b"]

  const KnowledgePatterns: seq<string> := [
    "maquininha\\b", "tap\\s+to\\s+pay\\b", "pdv\\b", "point\\s+of\\s+sale\\b",
    "link\\s+de\\s+pagamento\\b", "loja\\s+online\\b", "boleto\\b", "conta\\s+digital\\b",
    "conta\\s+pj\\b", "pix\\b", "pix\\s+parcelado\\b", "empréstimo\\b", "cartão\\b",
    "rendimento\\b", "taxas?\\b", "tarifas?\\b", "preços?\\b", "valores?\\b",
    "como\\s+funciona\\b", "como\\s+usar\\b", "funcionalidades?\\b", "benefícios?\\b",
    "vantagens?\\b", "prazos?\\b", "limites?\\b", "requisitos?\\b",
    "infinitepay\\b", "sobre\\b", "informações?\\s+sobre\\b", "o\\s+que\\s+é\\b",
    "como\\s+começar\\b", "cadastro\\b", "abrir\\s+conta\\b"]

  const EscalationPatterns: seq<string> := [
    "urgente\\b", "emergência\\b", "crítico\\b", "imediatamente\\b",
    "falar\\s+com\\s+humano\\b", "atendente\\s+humano\\b", "pessoa\\s+real\\b",
    "não\\s+entendi\\b", "não\\s+respondeu\\b", "tentativas?\\b", "já\\s+tentei\\b",
    "urgent\\b", "emergency\\b", "critical\\b", "immediately\\b", "real\\s+person\\b",
    "human\\s+agent\\b", "speak\\s+to\\s+a\\s+human\\b", "frustrated\\b", "useless\\b",
    "didn't\\s+understand\\b", "didn't\\s+answer\\b", "already\\s+tried\\b", "attempts\\b"]

  const SplitPatterns: seq<string> := [
    "\\be\\b", "\\b[eé]\\s+também\\b", "\\balém\\s+disso\\b", "\\boutra\\s+coisa\\b",
    "\\bporém\\b", "\\bmas\\b", "\\bentretanto\\b"]

  /** The pattern of the last-resort two-way split. */
  const PairPattern := "\\s+e\\s+|\\s+and\\s+"

  const TicketPatterns: seq<string> := [
    "create\\s+(a\\s+)?support\\s+ticket", "open\\s+(a\\s+)?ticket", "file\\s+(a\\s+)?ticket",
    "support\\s+ticket", "abrir\\s+(um\\s+)?chamado", "abrir\\s+(um\\s+)?ticket",
    "criar\\s+(um\\s+)?chamado"]

  const SupportKeywords: seq<string> := ["minha", "meu", "conta", "saldo", "transação", "problema", "ajuda"]
  const KnowledgeKeywords: seq<string> := ["o que é", "como funciona", "taxa", "preço", "produto", "serviço"]

  /** Some pattern of the list matches the text. */
  predicate SearchAny(find: Finder, patterns: seq<string>, text: string) {
    exists k :: 0 <= k < |patterns| && Search(find, patterns[k], text)
  }

  // ---------------------------------------------------------------------
  // Intent classification

  datatype Intent = SupportIntent | KnowledgeIntent | EscalateIntent | UnknownIntent

  function IntentName(i: Intent): string {
    match i
    case SupportIntent => "support"
    case KnowledgeIntent => "knowledge"
    case EscalateIntent => "escalate"
    case UnknownIntent => "unknown"
  }

  /** The tag a classification line names, if it is one of the four. */
  function IntentOfLabel(tag: string): (r: Option<Intent>)
    ensures r.Some? ==> IntentName(r.value) == tag
    ensures r.None? ==> forall i: Intent :: IntentName(i) != tag
  {
    if tag == "support" then Some(SupportIntent)
    else if tag == "knowledge" then Some(KnowledgeIntent)
    else if tag == "escalate" then Some(EscalateIntent)
    else if tag == "unknown" then Some(UnknownIntent)
    else None
  }

  /** `_check_escalation`: some escalation pattern matches. */
  predicate CheckEscalation(find: Finder, query: string)
    ensures CheckEscalation(find, query) <==> Score(find, EscalationPatterns, query) > 0
  {
    SearchAny(find, EscalationPatterns, query)
  }

  /** The indices of the patterns, from `lo` on, that match. */
  function MatchSet(find: Finder, patterns: seq<string>, lo: nat, text: string): set<int> {
    set k | lo <= k < |patterns| && Search(find, patterns[k], text)
  }

  /** The number of patterns of the list that match: one point per
      matching pattern, as the scoring loop counts. */
  function Score(find: Finder, patterns: seq<string>, text: string): (n: nat)
    ensures n <= |patterns|
    ensures n == |set k | 0 <= k < |patterns| && Search(find, patterns[k], text)|
    ensures n == 0 <==> !SearchAny(find, patterns, text)
  {
    var n := ScoreFrom(find, patterns, 0, text);
    assert SearchAny(find, patterns, text) ==> n > 0 by {
      if SearchAny(find, patterns, text) {
        var k :| 0 <= k < |patterns| && Search(find, patterns[k], text);
        assert k in MatchSet(find, patterns, 0, text);
      }
    }
    n
  }

  /** The scoring loop from pattern `lo` on. */
  function ScoreFrom(find: Finder, patterns: seq<string>, lo: nat, text: string): (n: nat)
    requires lo <= |patterns|
    ensures n == |MatchSet(find, patterns, lo, text)|
    ensures n <= |patterns| - lo
    decreases |patterns| - lo
  {
    if lo == |patterns| then
      assert MatchSet(find, patterns, lo, text) == {};
      0
    else
      var n := ScoreFrom(find, patterns, lo + 1, text);
      var hit := Search(find, patterns[lo], text);
      assert MatchSet(find, patterns, lo, text)
             == MatchSet(find, patterns, lo + 1, text) + (if hit then {lo} else {});
      assert lo !in MatchSet(find, patterns, lo + 1, text);
      (if hit then 1 else 0) + n
  }

  /** The confidence of a pattern-score win with top score `top`. */
  function ScoreConfidence(top: nat, wordCount: nat): (c: real)
    requires top >= 1
    ensures 0.6 <= c <= 1.0
    ensures top >= 2 ==> c == 1.0
    ensures top == 1 ==> c == (if wordCount > 3 then 0.8 else 0.6)
  {
    var base := MinReal(top as real / 2.0, 1.0);
    var boosted := if wordCount > 3 then MinReal(base + 0.3, 1.0) else base;
    MaxReal(boosted, 0.6)
  }

  /** `_has_support_keywords`, then `_has_knowledge_keywords`, else unknown. */
  function KeywordFallback(query: string): (r: (Intent, real))
    ensures r.0 == SupportIntent <==> ContainsAny(query, SupportKeywords)
    ensures r.0 == KnowledgeIntent <==> !ContainsAny(query, SupportKeywords) && ContainsAny(query, KnowledgeKeywords)
    ensures r.1 == (if r.0 == UnknownIntent then 0.3 else 0.6)
  {
    if ContainsAny(query, SupportKeywords) then (SupportIntent, 0.6)
    else if ContainsAny(query, KnowledgeKeywords) then (KnowledgeIntent, 0.6)
    else (UnknownIntent, 0.3)
  }

  /** `_classify_with_rules` on the lower-cased, stripped query. The intent
      table lists support first, and `max` keeps the first of equal
      scores, so a tie goes to support. */
  function RulesClassify(find: Finder, query: string): (r: (Intent, real))
    ensures r.0 != EscalateIntent
    ensures 0.3 <= r.1 <= 1.0
    ensures var s := Score(find, SupportPatterns, query);
      var k := Score(find, KnowledgePatterns, query);
      && (s == 0 && k == 0 ==> r == KeywordFallback(query))
      && (s + k > 0 ==> r.0 != UnknownIntent && 0.6 <= r.1)
      && (s + k > 0 && r.0 == SupportIntent ==> s >= k)
      && (s + k > 0 && r.0 == KnowledgeIntent ==> k > s)
      && (s + k > 0 ==> r.1 == ScoreConfidence(if s >= k then s else k, |Words(query)|))
  {
    var s := Score(find, SupportPatterns, query);
    var k := Score(find, KnowledgePatterns, query);
    if s == 0 && k == 0 then KeywordFallback(query)
    else
      var top := if s >= k then s else k;
      var intent := if s >= k then SupportIntent else KnowledgeIntent;
      (intent, ScoreConfidence(top, |Words(query)|))
  }

  // ---------------------------------------------------------------------
  // The model classifier's output

  const ClassificationKey := "CLASSIFICATION:"
  const ConfidenceKey := "CONFIDENCE:"

  /** `line.split(key)[1]`: what follows the first occurrence of `key`, up
      to its next occurrence. */
  function FieldAfter(line: string, key: string): (r: string)
    requires key != [] && Contains(line, key)
    ensures Find(line, key) + |key| + |r| <= |line|
    ensures r == line[Find(line, key) + |key|..Find(line, key) + |key| + |r|]
    ensures !Contains(r, key)
  {
    var i := Find(line, key);
    var rest := line[i + |key|..];
    var j := Find(rest, key);
    if j >= 0 then
      var r := rest[..j];
      forall p | 0 <= p ensures OccursAt(r, key, p) ==> OccursAt(rest, key, p) {
        OccursInPrefix(rest, key, j, p);
      }
      r
    else
      rest
  }

  function LabelOf(line: string): string
    requires Contains(line, ClassificationKey)
  {
    Lower(Strip(FieldAfter(line, ClassificationKey)))
  }

  /** A confidence line's value; a value `float` rejects reads as 0.5. */
  function ConfidenceOf(parse: string -> Option<real>, line: string): real
    requires Contains(line, ConfidenceKey)
  {
    parse(Strip(FieldAfter(line, ConfidenceKey))).GetOr(0.5)
  }

  predicate IsConfidenceLine(line: string) {
    !Contains(line, ClassificationKey) && Contains(line, ConfidenceKey)
  }

  /** The label after a line: a classification line names a new one. */
  function NextTag(line: string, tag: string): string {
    if Contains(line, ClassificationKey) then LabelOf(line) else tag
  }

  /** The confidence after a line: a confidence line that is not also a
      classification line (the `elif`) gives a new one. */
  function NextConfidence(parse: string -> Option<real>, line: string, conf: real): real {
    if IsConfidenceLine(line) then ConfidenceOf(parse, line) else conf
  }

  /** The loop over the output lines. */
  function ScanLines(parse: string -> Option<real>, lines: seq<string>, tag: string, conf: real): (string, real)
    decreases |lines|
  {
    if lines == [] then (tag, conf)
    else ScanLines(parse, lines[1..], NextTag(lines[0], tag), NextConfidence(parse, lines[0], conf))
  }

  /** Without a classification line the label stays as it was. */
  lemma {:induction false} ScanKeepsLabel(parse: string -> Option<real>, lines: seq<string>, tag: string, conf: real)
    requires forall j :: 0 <= j < |lines| ==> !Contains(lines[j], ClassificationKey)
    ensures ScanLines(parse, lines, tag, conf).0 == tag
    decreases |lines|
  {
    if lines != [] {
      ScanKeepsLabel(parse, lines[1..], tag, NextConfidence(parse, lines[0], conf));
    }
  }

  /** The last classification line decides the label. */
  lemma {:induction false} LastLabelWins(parse: string -> Option<real>, lines: seq<string>, tag: string, conf: real, k: nat)
    requires k < |lines| && Contains(lines[k], ClassificationKey)
    requires forall j :: k < j < |lines| ==> !Contains(lines[j], ClassificationKey)
    ensures ScanLines(parse, lines, tag, conf).0 == LabelOf(lines[k])
    decreases |lines|
  {
    var tail := lines[1..];
    var conf' := NextConfidence(parse, lines[0], conf);
    if k == 0 {
      ScanKeepsLabel(parse, tail, LabelOf(lines[0]), conf');
    } else {
      assert tail[k - 1] == lines[k];
      LastLabelWins(parse, tail, NextTag(lines[0], tag), conf', k - 1);
    }
  }

  /** Without a confidence line the confidence stays as it was. */
  lemma {:induction false} ScanKeepsConfidence(parse: string -> Option<real>, lines: seq<string>, tag: string, conf: real)
    requires forall j :: 0 <= j < |lines| ==> !IsConfidenceLine(lines[j])
    ensures ScanLines(parse, lines, tag, conf).1 == conf
    decreases |lines|
  {
    if lines != [] {
      ScanKeepsConfidence(parse, lines[1..], NextTag(lines[0], tag), conf);
    }
  }

  /** The last confidence line decides the confidence. */
  lemma {:induction false} LastConfidenceWins(parse: string -> Option<real>, lines: seq<string>, tag: string, conf: real, k: nat)
    requires k < |lines| && IsConfidenceLine(lines[k])
    requires forall j :: k < j < |lines| ==> !IsConfidenceLine(lines[j])
    ensures ScanLines(parse, lines, tag, conf).1 == ConfidenceOf(parse, lines[k])
    decreases |lines|
  {
    var tail := lines[1..];
    var tag' := NextTag(lines[0], tag);
    if k == 0 {
      ScanKeepsConfidence(parse, tail, tag', ConfidenceOf(parse, lines[0]));
    } else {
      assert tail[k - 1] == lines[k];
      LastConfidenceWins(parse, tail, tag', NextConfidence(parse, lines[0], conf), k - 1);
    }
  }

  /** The lines of the stripped model output. */
  function OutputLines(content: string): seq<string> {
    SplitOn(Strip(content), '\n')
  }

  /** The parse in `_classify_with_llm`: tag "unknown" and confidence 0.5
      until a line says otherwise; an unknown tag gives nothing, and the
      confidence is capped at 0.95 but not bounded below. */
  function ParseModelOutput(parse: string -> Option<real>, content: string): (r: Option<(Intent, real)>)
    ensures var scanned := ScanLines(parse, OutputLines(content), "unknown", 0.5);
      && (r.Some? <==> IntentOfLabel(scanned.0).Some?)
      && (r.Some? ==> IntentName(r.value.0) == scanned.0 && r.value.1 <= 0.95)
      && (r.Some? && scanned.1 <= 0.95 ==> r.value.1 == scanned.1)
      && (r.Some? && scanned.1 > 0.95 ==> r.value.1 == 0.95)
  {
    var (tag, conf) := ScanLines(parse, OutputLines(content), "unknown", 0.5);
    match IntentOfLabel(tag)
    case None => None
    case Some(i) => Some((i, MinReal(conf, 0.95)))
  }

  /** An output with no classification line is read as "unknown", so the
      pattern rules are not consulted. */
  lemma {:induction false} UnlabelledOutputIsUnknown(parse: string -> Option<real>, content: string)
    requires forall j :: 0 <= j < |OutputLines(content)| ==> !Contains(OutputLines(content)[j], ClassificationKey)
    ensures ParseModelOutput(parse, content).Some?
    ensures ParseModelOutput(parse, content).value.0 == UnknownIntent
  {
    ScanKeepsLabel(parse, OutputLines(content), "unknown", 0.5);
  }

  // ---------------------------------------------------------------------
  // The conjunction splitter

  /** Python's `s[i:j]` for non-negative bounds: both are clamped to the
      length, and a reversed range is empty. */
  function Slice(s: string, i: nat, j: nat): (r: string)
    ensures i <= j <= |s| ==> r == s[i..j]
    ensures r == [] || (i < |s| && |r| <= j - i && i + |r| <= |s|)
  {
    var hi := if j < |s| then j else |s|;
    var lo := if i < hi then i else hi;
    s[lo..hi]
  }

  /** The start positions of the matches. */
  function Starts(spans: seq<Span>): (r: seq<nat>)
    ensures |r| == |spans|
    ensures forall k :: 0 <= k < |r| ==> r[k] == spans[k].start
  {
    if spans == [] then [] else [spans[0].start] + Starts(spans[1..])
  }

  /** Every match start of every pattern, pattern by pattern. */
  function SplitPoints(find: Finder, patterns: seq<string>, text: string): (r: seq<nat>)
    ensures Sound(find) ==> Below(r, |text|)
    ensures r == [] <==> forall k :: 0 <= k < |patterns| ==> find(patterns[k], text) == []
  {
    if patterns == [] then []
    else
      var here := Starts(find(patterns[0], text));
      var rest := SplitPoints(find, patterns[1..], text);
      assert forall k :: 1 <= k < |patterns| ==> patterns[k] == patterns[1..][k - 1];
      assert forall k :: |here| <= k < |here| + |rest| ==> (here + rest)[k] == rest[k - |here|];
      here + rest
  }

  /** Each point at least the one before it. */
  predicate Ascending(s: seq<nat>) {
    forall i :: 0 < i < |s| ==> s[i - 1] <= s[i]
  }

  function InsertAscending(x: nat, s: seq<nat>): (r: seq<nat>)
    requires Ascending(s)
    ensures Ascending(r)
    ensures multiset(r) == multiset(s) + multiset{x}
    ensures r != [] && (r[0] == x || (s != [] && r[0] == s[0]))
    decreases |s|
  {
    if s == [] || x <= s[0] then [x] + s
    else
      assert s == [s[0]] + s[1..];
      [s[0]] + InsertAscending(x, s[1..])
  }

  /** `sorted(points)` */
  function SortAscending(s: seq<nat>): (r: seq<nat>)
    ensures Ascending(r)
    ensures multiset(r) == multiset(s)
    decreases |s|
  {
    if s == [] then []
    else
      assert s == [s[0]] + s[1..];
      InsertAscending(s[0], SortAscending(s[1..]))
  }

  /** Non-empty, stripped pieces of text. */
  predicate Fragments(xs: seq<string>) {
    forall k :: 0 <= k < |xs| ==> xs[k] != [] && IsStripped(xs[k])
  }

  predicate ShorterThan(xs: seq<string>, n: nat) {
    forall k :: 0 <= k < |xs| ==> |xs[k]| < n
  }

  predicate Below(points: seq<nat>, n: nat) {
    forall k :: 0 <= k < |points| ==> points[k] < n
  }

  lemma {:induction false} FragmentsAppend(a: seq<string>, b: seq<string>, n: nat)
    requires Fragments(a) && Fragments(b)
    ensures Fragments(a + b)
    ensures ShorterThan(a, n) && ShorterThan(b, n) ==> ShorterThan(a + b, n)
  {
    forall k | 0 <= k < |a + b| ensures (a + b)[k] == (if k < |a| then a[k] else b[k - |a|]) {}
  }

  /** The fragment cut at `point` when the last cut was at `start`: the
      stripped text between them, kept when it is more than five
      characters long before stripping and not empty after. */
  function Piece(query: string, start: nat, point: nat): (r: seq<string>)
    ensures |r| <= 1 && Fragments(r)
    ensures point < |query| ==> ShorterThan(r, |query|)
  {
    if point - start > 5 then
      var piece := Strip(Slice(query, start, point));
      if piece != [] then [piece] else []
    else []
  }

  /** Where the next stretch starts: past the first word at `point`, or one
      character further when only whitespace follows. */
  function NextStart(lowered: string, point: nat): (n: nat)
    ensures n > point
  {
    var after := Words(Slice(lowered, point, |lowered|));
    if after != [] then point + |after[0]| else point + 1
  }

  /** The loop over the sorted split points; returns the fragments and
      where the remainder starts. */
  function CutAt(query: string, lowered: string, points: seq<nat>, start: nat): (r: (seq<string>, nat))
    ensures Fragments(r.0)
    ensures Below(points, |query|) ==> ShorterThan(r.0, |query|)
    ensures points != [] ==> r.1 >= 1
    decreases |points|
  {
    if points == [] then ([], start)
    else
      var cut := Piece(query, start, points[0]);
      var rest := CutAt(query, lowered, points[1..], NextStart(lowered, points[0]));
      assert Below(points, |query|) ==> Below(points[1..], |query|) && points[0] < |query| by {
        if Below(points, |query|) {
          assert forall k :: 0 <= k < |points[1..]| ==> points[1..][k] == points[k + 1];
        }
      }
      FragmentsAppend(cut, rest.0, |query|);
      (cut + rest.0, rest.1)
  }

  /** `re.split(PairPattern, query, 1)`, which has two parts exactly when
      the pattern matches. */
  function PairSplit(find: Finder, query: string): (r: Option<(string, string)>)
    ensures r.None? <==> find(PairPattern, query) == []
    ensures Sound(find) && r.Some? ==> |r.value.0| < |query| && |r.value.1| < |query|
  {
    var spans := find(PairPattern, query);
    if spans == [] then None
    else Some((Slice(query, 0, spans[0].start), Slice(query, spans[0].end, |query|)))
  }

  /** The text after the last cut, stripped, when it is more than five
      characters long. */
  function Remainder(query: string, end: nat): (r: seq<string>)
    ensures |r| <= 1 && Fragments(r)
    ensures end >= 1 ==> ShorterThan(r, |query|)
  {
    var remaining := Strip(Slice(query, end, |query|));
    if remaining != [] && |remaining| > 5 then [remaining] else []
  }

  /** More than five characters once stripped. */
  predicate LongEnough(s: string) {
    |Strip(s)| > 5
  }

  lemma ShorterPair(a: string, b: string, n: nat)
    ensures |a| < n && |b| < n ==> ShorterThan([a, b], n)
  {
  }

  /** The last-resort split: the two parts of `re.split(PairPattern,
      query, 1)` when both are long enough. */
  function PairFragments(find: Finder, query: string): (r: Option<seq<string>>)
    ensures r.Some? ==> |r.value| == 2
    ensures r.Some? && Sound(find) ==> ShorterThan(r.value, |query|)
  {
    var pair := PairSplit(find, query);
    if pair.None? then None
    else
      var parts := [pair.value.0, pair.value.1];
      assert Sound(find) ==> |pair.value.0| < |query| && |pair.value.1| < |query|;
      ShorterPair(pair.value.0, pair.value.1, |query|);
      if LongEnough(parts[0]) && LongEnough(parts[1]) then Some(parts) else None
  }

  /** The fragments of a query that has split points. */
  function SplitAtPoints(find: Finder, query: string, points: seq<nat>): (r: seq<string>)
    requires points != []
    ensures |r| >= 1
    ensures Sound(find) && Below(points, |query|) && |r| >= 2 ==> ShorterThan(r, |query|)
  {
    var cut := CutAt(query, Lower(query), points, 0);
    var rem := Remainder(query, cut.1);
    FragmentsAppend(cut.0, rem, |query|);
    var subs := cut.0 + rem;
    var pair := PairFragments(find, query);
    if |subs| < 2 && pair.Some? then pair.value
    else if subs != [] then subs
    else [query]
  }

  /** Sorting keeps the points inside the text. */
  lemma {:induction false} SortedPointsBelow(found: seq<nat>, n: nat)
    requires Below(found, n)
    ensures Below(SortAscending(found), n)
  {
    var points := SortAscending(found);
    forall k | 0 <= k < |points| ensures points[k] < n {
      assert points[k] in multiset(found);
    }
  }

  /** `_split_multi_intent`. Offsets found in the lower-cased query cut the
      query itself, which is sound because lower-casing keeps the length.
      The two-way split is tried only when there were split points but
      fewer than two fragments came of them. */
  function SplitMultiIntent(find: Finder, query: string): (r: seq<string>)
    ensures |r| >= 1
    ensures SplitPoints(find, SplitPatterns, Lower(query)) == [] ==> r == [query]
    ensures Sound(find) && |r| >= 2 ==> ShorterThan(r, |query|)
  {
    var found := SplitPoints(find, SplitPatterns, Lower(query));
    if found == [] then [query]
    else
      assert Sound(find) ==> Below(SortAscending(found), |query|) by {
        if Sound(find) {
          SortedPointsBelow(found, |query|);
        }
      }
      SplitAtPoints(find, query, SortAscending(found))
  }

  // ---------------------------------------------------------------------
  // Classification

  /** The outside calls the router makes. `modelConfigured` is the check
      that the model provider is "openai" with an API key set; `classify`
      is the model's reply to the classification prompt for a query;
      `parseFloat` is Python's `float` on a string, `None` where it raises
      `ValueError`; `detect` is the language detector. */
  datatype Backend = Backend(
    find: Finder,
    modelConfigured: bool,
    classify: string -> Outcome<string>,
    parseFloat: string -> Option<real>,
    detect: string -> Outcome<string>,
    knowledge: Knowledge.Backend,
    support: Support.Backend,
    now: string)

  /** `_classify_with_llm`: nothing unless configured, nothing when the
      call raises or the reply names no known intent. */
  function ModelClassify(b: Backend, query: string): (r: Option<(Intent, real)>)
    ensures !b.modelConfigured ==> r.None?
    ensures b.modelConfigured && b.classify(query).Returned? ==>
              r == ParseModelOutput(b.parseFloat, b.classify(query).value)
    ensures r.Some? ==> r.value.1 <= 0.95
  {
    if !b.modelConfigured then None
    else
      match b.classify(query)
      case Raised => None
      case Returned(content) => ParseModelOutput(b.parseFloat, content)
  }

  /** `classify_intent`: the escalation patterns first, on the lower-cased,
      stripped query; then the model; then the pattern rules. */
  function ClassifyIntent(b: Backend, query: string): (r: (Intent, real))
    ensures CheckEscalation(b.find, Strip(Lower(query))) ==> r == (EscalateIntent, 1.0)
    ensures !CheckEscalation(b.find, Strip(Lower(query))) && ModelClassify(b, query).None? ==>
              r == RulesClassify(b.find, Strip(Lower(query)))
    ensures !CheckEscalation(b.find, Strip(Lower(query))) && ModelClassify(b, query).Some? ==>
              r == ModelClassify(b, query).value
    ensures r.1 <= 1.0
    ensures !b.modelConfigured ==> 0.3 <= r.1
  {
    var q := Strip(Lower(query));
    if CheckEscalation(b.find, q) then (EscalateIntent, 1.0)
    else
      match ModelClassify(b, query)
      case Some(r) => r
      case None => RulesClassify(b.find, q)
  }

  // ---------------------------------------------------------------------
  // Routing

  /** Where a routed answer came from: the hand-off to a person, one of the
      two responders, or the combination of a split query's fragments. */
  datatype Reply =
    | Escalated
    | Supported(support: Support.SupportResult)
    | Answered(knowledge: Knowledge.KnowledgeResult)
    | Combined(subQueries: seq<string>, agentsUsed: seq<string>)

  /** The router's response: answer, `agent_used`, `intent`, `confidence`,
      `lang`, and what it came from; `handoff_to_human` is set exactly for
      `Escalated`. */
  datatype RouteResult = RouteResult(
    answer: string, agentUsed: string, intent: string, confidence: real, lang: string, reply: Reply)

  const EscalationEn := "I understand this might be urgent or complex. I’ll connect you with a human agent who can help further. Please hold on a moment... 🔄"
  const EscalationPt := "Entendo que sua solicitação pode ser urgente ou complexa. Vou encaminhar você para um atendente humano que poderá ajudar melhor. Por favor, aguarde um momento... 🔄"

  function EscalationMessage(lang: string): string {
    if IsEnglish(lang) then EscalationEn else EscalationPt
  }

  /** A support response relabelled with the router's intent and confidence. */
  function FromSupport(s: Support.SupportResult, confidence: real, lang: string): RouteResult {
    RouteResult(s.answer, "support", "support", confidence, lang, Supported(s))
  }

  /** A knowledge response relabelled with the router's intent and confidence. */
  function FromKnowledge(k: Knowledge.KnowledgeResult, confidence: real, lang: string): RouteResult {
    RouteResult(k.answer, "knowledge", "knowledge", confidence, lang, Answered(k))
  }

  /** The explicit request for a ticket that bypasses classification. */
  predicate TicketOverride(find: Finder, lowered: string) {
    SearchAny(find, TicketPatterns, lowered)
    || (Contains(lowered, "subject:") && Contains(lowered, "description:"))
  }

  /** `after` is `before` with tickets appended, each opened for `userId`. */
  predicate Extends(before: Store, after: Store, userId: Option<string>) {
    && after.users == before.users
    && after.transactions == before.transactions
    && |before.tickets| <= |after.tickets|
    && after.tickets[..|before.tickets|] == before.tickets
    && (|before.tickets| < |after.tickets| ==>
          && userId.Some?
          && forall j :: |before.tickets| <= j < |after.tickets| ==> after.tickets[j].userId == userId.value)
  }

  lemma {:induction false} ExtendsTransitive(a: Store, b: Store, c: Store, userId: Option<string>)
    requires Extends(a, b, userId) && Extends(b, c, userId)
    ensures Extends(a, c, userId)
  {
    assert c.tickets[..|a.tickets|] == c.tickets[..|b.tickets|][..|a.tickets|];
    forall j | |a.tickets| <= j < |c.tickets|
      ensures c.tickets[j].userId == userId.GetOr("")
    {
      if j < |b.tickets| {
        assert c.tickets[j] == c.tickets[..|b.tickets|][j] == b.tickets[j];
      }
    }
  }

  /** The support responder changes the store only by opening a ticket for
      the caller. */
  lemma {:induction false} SupportExtends(store: Store, b: Support.Backend, query: string, userId: Option<string>, lang: string, now: string)
    ensures Extends(store, Support.ProcessQuery(store, b, query, userId, lang, now).1, userId)
  {
    var r := Support.ProcessQuery(store, b, query, userId, lang, now);
    if r.1 != store {
      assert Support.HasUserId(userId);
    }
  }

  /** The support responder, its response relabelled. */
  function RouteToSupport(store: Store, b: Backend, query: string, userId: Option<string>, lang: string, confidence: real)
    : (r: (RouteResult, Store))
    ensures Extends(store, r.1, userId)
    ensures r.0.reply.Supported? && r.0.agentUsed == "support" && r.0.intent == "support"
    ensures r.0.confidence == confidence && r.0.lang == lang
  {
    SupportExtends(store, b.support, query, userId, lang, b.now);
    var (s, store') := Support.ProcessQuery(store, b.support, query, userId, lang, b.now);
    (FromSupport(s, confidence, lang), store')
  }

  /** The unknown intent: the knowledge responder when it is available and
      more than 0.3 sure of its answer, otherwise the support responder. */
  function RouteUnknown(store: Store, b: Backend, query: string, userId: Option<string>, lang: string, confidence: real)
    : (r: (RouteResult, Store))
    ensures Extends(store, r.1, userId)
    ensures r.0.confidence == confidence && r.0.lang == lang
    ensures r.0.agentUsed == "knowledge" <==>
              Knowledge.IsAvailable(b.knowledge) && Knowledge.ProcessQuery(b.knowledge, query, lang).confidence > 0.3
    ensures r.0.agentUsed != "knowledge" ==> r.0.reply.Supported? && r.0.agentUsed == "support"
    ensures r.0.intent == r.0.agentUsed
  {
    if Knowledge.IsAvailable(b.knowledge) && Knowledge.ProcessQuery(b.knowledge, query, lang).confidence > 0.3 then
      (FromKnowledge(Knowledge.ProcessQuery(b.knowledge, query, lang), confidence, lang), store)
    else
      RouteToSupport(store, b, query, userId, lang, confidence)
  }

  /** The branch on the classified intent. */
  function RouteIntent(store: Store, b: Backend, query: string, userId: Option<string>, lang: string,
                       intent: Intent, confidence: real): (r: (RouteResult, Store))
    ensures Extends(store, r.1, userId)
    ensures r.0.lang == lang && !r.0.reply.Combined?
    ensures confidence <= 1.0 ==> r.0.confidence <= 1.0
    ensures 0.3 <= confidence ==> 0.24 <= r.0.confidence
    ensures intent == EscalateIntent <==> r.0.reply.Escalated?
    ensures intent == EscalateIntent ==>
      r == (RouteResult(EscalationMessage(lang), "router", "escalate", confidence, lang, Escalated), store)
    ensures intent == SupportIntent ==> r.0.reply.Supported? && r.0.confidence == confidence
    ensures intent == KnowledgeIntent ==> r.0.reply.Answered? && r.0.confidence == confidence
    ensures intent == UnknownIntent ==>
      && r.0.confidence == confidence * 0.8
      && (r.0.intent == "knowledge" <==>
           Knowledge.IsAvailable(b.knowledge) && Knowledge.ProcessQuery(b.knowledge, query, lang).confidence > 0.3)
      && (r.0.intent == "knowledge" || r.0.intent == "support")
  {
    match intent
    case EscalateIntent =>
      (RouteResult(EscalationMessage(lang), "router", "escalate", confidence, lang, Escalated), store)
    case SupportIntent =>
      RouteToSupport(store, b, query, userId, lang, confidence)
    case KnowledgeIntent =>
      (FromKnowledge(Knowledge.ProcessQuery(b.knowledge, query, lang), confidence, lang), store)
    case UnknownIntent =>
      RouteUnknown(store, b, query, userId, lang, confidence * 0.8)
  }

  /** `route_query` for a query that did not split: the ticket override,
      then the classified intent. */
  function RouteSingle(store: Store, b: Backend, query: string, userId: Option<string>, lang: string)
    : (r: (RouteResult, Store))
    ensures Extends(store, r.1, userId)
    ensures r.0.lang == lang && !r.0.reply.Combined?
    ensures r.0.confidence <= 1.0
    ensures !b.modelConfigured ==> 0.24 <= r.0.confidence
    // an explicit ticket request goes to support at 0.95, escalation patterns or not
    ensures TicketOverride(b.find, Lower(query)) ==>
      r.0.reply.Supported? && r.0.intent == "support" && r.0.agentUsed == "support" && r.0.confidence == 0.95
    // otherwise an escalation pattern hands over to a person: no responder runs, nothing is stored
    ensures !TicketOverride(b.find, Lower(query)) && CheckEscalation(b.find, Strip(Lower(query))) ==>
      r == (RouteResult(EscalationMessage(lang), "router", "escalate", 1.0, lang, Escalated), store)
    // the unknown intent is damped to 0.8 and goes to knowledge only when it is available and sure enough
    ensures !TicketOverride(b.find, Lower(query)) && ClassifyIntent(b, query).0 == UnknownIntent ==>
      && r.0.confidence == ClassifyIntent(b, query).1 * 0.8
      && (r.0.intent == "knowledge" <==>
           Knowledge.IsAvailable(b.knowledge) && Knowledge.ProcessQuery(b.knowledge, query, lang).confidence > 0.3)
      && (r.0.intent == "knowledge" || r.0.intent == "support")
  {
    if TicketOverride(b.find, Lower(query)) then
      RouteToSupport(store, b, query, userId, lang, 0.95)
    else
      var c := ClassifyIntent(b, query);
      RouteIntent(store, b, query, userId, lang, c.0, c.1)
  }

  // ---------------------------------------------------------------------
  // Several intents

  predicate AllAtMost(rs: seq<RouteResult>, hi: real) {
    forall k :: 0 <= k < |rs| ==> rs[k].confidence <= hi
  }

  predicate AllAtLeast(rs: seq<RouteResult>, lo: real) {
    forall k :: 0 <= k < |rs| ==> lo <= rs[k].confidence
  }

  function SumConfidence(rs: seq<RouteResult>): real {
    if rs == [] then 0.0 else rs[0].confidence + SumConfidence(rs[1..])
  }

  lemma {:induction false} SumAtMost(rs: seq<RouteResult>, hi: real)
    requires AllAtMost(rs, hi)
    ensures SumConfidence(rs) <= (|rs| as real) * hi
    decreases |rs|
  {
    if rs != [] {
      var tail := rs[1..];
      assert forall k :: 0 <= k < |tail| ==> tail[k] == rs[k + 1];
      SumAtMost(tail, hi);
      assert (|rs| as real) * hi == hi + (|tail| as real) * hi;
    }
  }

  lemma {:induction false} SumAtLeast(rs: seq<RouteResult>, lo: real)
    requires AllAtLeast(rs, lo)
    ensures (|rs| as real) * lo <= SumConfidence(rs)
    decreases |rs|
  {
    if rs != [] {
      var tail := rs[1..];
      assert forall k :: 0 <= k < |tail| ==> tail[k] == rs[k + 1];
      SumAtLeast(tail, lo);
      assert (|rs| as real) * lo == lo + (|tail| as real) * lo;
    }
  }

  /** The mean of the confidences; 0 for no results. */
  function MeanConfidence(rs: seq<RouteResult>): real {
    if rs == [] then 0.0 else SumConfidence(rs) / (|rs| as real)
  }

  /** The mean lies within any bounds every confidence keeps. */
  lemma {:induction false} MeanWithin(rs: seq<RouteResult>, lo: real, hi: real)
    requires rs != []
    ensures AllAtMost(rs, hi) ==> MeanConfidence(rs) <= hi
    ensures AllAtLeast(rs, lo) ==> lo <= MeanConfidence(rs)
  {
    var n := |rs| as real;
    if AllAtMost(rs, hi) {
      SumAtMost(rs, hi);
      DivideMonotonic(SumConfidence(rs), n * hi, n);
      assert (n * hi) / n == hi;
    }
    if AllAtLeast(rs, lo) {
      SumAtLeast(rs, lo);
      DivideMonotonic(n * lo, SumConfidence(rs), n);
      assert (n * lo) / n == lo;
    }
  }

  lemma {:induction false} DivideMonotonic(a: real, b: real, n: real)
    requires a <= b && n > 0.0
    ensures a / n <= b / n
  {
    assert b / n - a / n == (b - a) / n;
  }

  function AgentsUsed(rs: seq<RouteResult>): (r: seq<string>)
    ensures |r| == |rs|
    ensures forall k :: 0 <= k < |r| ==> r[k] == rs[k].agentUsed
  {
    if rs == [] then [] else [rs[0].agentUsed] + AgentsUsed(rs[1..])
  }

  function Answers(rs: seq<RouteResult>): (r: seq<string>)
    ensures |r| == |rs|
    ensures forall k :: 0 <= k < |r| ==> r[k] == rs[k].answer
  {
    if rs == [] then [] else [rs[0].answer] + Answers(rs[1..])
  }

  /** One numbered entry of the combined answer. */
  function Item(n: nat, itemLabel: string, query: string, response: string): string {
    "**" + NatToString(n) + ". " + itemLabel + ": " + query + "**\n" + response + "\n\n"
  }

  /** The entries for `subs`, numbered from `first`, in order. */
  function Entries(subs: seq<string>, responses: seq<string>, itemLabel: string, first: nat): (r: seq<string>)
    requires |responses| == |subs|
    ensures |r| == |subs|
    ensures forall k :: 0 <= k < |r| ==> r[k] == Item(first + k, itemLabel, subs[k], responses[k])
    decreases |subs|
  {
    if subs == [] then []
    else
      var rest := Entries(subs[1..], responses[1..], itemLabel, first + 1);
      var r := [Item(first, itemLabel, subs[0], responses[0])] + rest;
      forall k | 1 <= k < |r| ensures r[k] == Item(first + k, itemLabel, subs[k], responses[k]) {
        assert r[k] == rest[k - 1];
        assert subs[1..][k - 1] == subs[k] && responses[1..][k - 1] == responses[k];
        assert first + 1 + (k - 1) == first + k;
      }
      r
  }

  const MultiHeaderEn := "🎯 **Answers to your questions:**"
  const MultiHeaderPt := "🎯 **Resposta para suas perguntas:**"

  /** `_handle_multi_intent` once every fragment has been routed. */
  function Combine(subs: seq<string>, results: seq<RouteResult>, lang: string): (r: RouteResult)
    requires |results| == |subs|
    ensures r.agentUsed == "router" && r.intent == "multi_intent" && r.lang == lang
    ensures r.reply == Combined(subs, AgentsUsed(results))
    ensures r.confidence == MeanConfidence(results)
    ensures r.answer == Strip((if IsEnglish(lang) then MultiHeaderEn else MultiHeaderPt) + "\n\n"
                              + Join(Entries(subs, Answers(results), if IsEnglish(lang) then "About" else "Sobre", 1), ""))
  {
    var header := if IsEnglish(lang) then MultiHeaderEn else MultiHeaderPt;
    var itemLabel := if IsEnglish(lang) then "About" else "Sobre";
    var combined := header + "\n\n" + Join(Entries(subs, Answers(results), itemLabel, 1), "");
    RouteResult(Strip(combined), "router", "multi_intent", MeanConfidence(results), lang,
                Combined(subs, AgentsUsed(results)))
  }

  /** `route_query` with the language already known: a query that splits in
      two or more is routed fragment by fragment, each fragment strictly
      shorter than the query. */
  function Route(store: Store, b: Backend, query: string, userId: Option<string>, lang: string)
    : (r: (RouteResult, Store))
    requires Sound(b.find)
    ensures Extends(store, r.1, userId)
    ensures r.0.lang == lang
    ensures r.0.confidence <= 1.0
    ensures !b.modelConfigured ==> 0.24 <= r.0.confidence
    ensures r.0.reply.Combined? <==> |SplitMultiIntent(b.find, query)| > 1
    ensures r.0.reply.Combined? ==>
              && r.0.reply.subQueries == SplitMultiIntent(b.find, query)
              && |r.0.reply.agentsUsed| == |r.0.reply.subQueries|
              && r.0.agentUsed == "router"
    ensures |SplitMultiIntent(b.find, query)| <= 1 ==> r == RouteSingle(store, b, query, userId, lang)
    decreases |query|, 1, 0
  {
    var subs := SplitMultiIntent(b.find, query);
    if |subs| > 1 then
      var (results, store') := RouteAll(store, b, subs, userId, lang, |query|);
      MeanWithin(results, 0.24, 1.0);
      (Combine(subs, results, lang), store')
    else
      RouteSingle(store, b, query, userId, lang)
  }

  /** The loop of `_handle_multi_intent`: each fragment routed in turn, the
      store threaded from one to the next. */
  function RouteAll(store: Store, b: Backend, subs: seq<string>, userId: Option<string>, lang: string, bound: nat)
    : (r: (seq<RouteResult>, Store))
    requires Sound(b.find)
    requires ShorterThan(subs, bound)
    ensures |r.0| == |subs|
    ensures Extends(store, r.1, userId)
    ensures AllAtMost(r.0, 1.0)
    ensures !b.modelConfigured ==> AllAtLeast(r.0, 0.24)
    decreases bound, 0, |subs|
  {
    if subs == [] then ([], store)
    else
      var first := Route(store, b, subs[0], userId, lang);
      ShorterTail(subs, bound);
      var rest := RouteAll(first.1, b, subs[1..], userId, lang, bound);
      ExtendsTransitive(store, first.1, rest.1, userId);
      BoundsCons(first.0, rest.0, 0.24, 1.0);
      ([first.0] + rest.0, rest.1)
  }

  lemma {:induction false} ShorterTail(subs: seq<string>, bound: nat)
    requires subs != [] && ShorterThan(subs, bound)
    ensures |subs[0]| < bound && ShorterThan(subs[1..], bound)
  {
    assert forall k :: 0 <= k < |subs[1..]| ==> subs[1..][k] == subs[k + 1];
  }

  lemma {:induction false} BoundsCons(first: RouteResult, rest: seq<RouteResult>, lo: real, hi: real)
    ensures first.confidence <= hi && AllAtMost(rest, hi) ==> AllAtMost([first] + rest, hi)
    ensures lo <= first.confidence && AllAtLeast(rest, lo) ==> AllAtLeast([first] + rest, lo)
  {
    assert forall k :: 1 <= k < |[first] + rest| ==> ([first] + rest)[k] == rest[k - 1];
  }

  /** The language of a call: as given, else detected, else Portuguese when
      detection fails. */
  function CallLanguage(b: Backend, query: string, lang: Option<string>): (l: string)
    ensures lang.Some? ==> l == lang.value
    ensures lang.None? && b.detect(query).Returned? ==> l == b.detect(query).value
    ensures lang.None? && b.detect(query).Raised? ==> l == "pt"
  {
    match lang
    case Some(l) => l
    case None =>
      match b.detect(query)
      case Returned(d) => d
      case Raised => "pt"
  }

  /** `route_query` */
  function RouteQuery(store: Store, b: Backend, query: string, userId: Option<string>, lang: Option<string>)
    : (r: (RouteResult, Store))
    requires Sound(b.find)
    ensures Extends(store, r.1, userId)
    ensures r.0.lang == CallLanguage(b, query, lang)
    ensures r.0.confidence <= 1.0
  {
    Route(store, b, query, userId, CallLanguage(b, query, lang))
  }
}

=== FILE: sorting.dfy ===
/** Python's string ordering and its stable `list.sort(key=..., reverse=True)`,
    written as an insertion sort over sequences. */
module Sorting {

  /** Python's `a < b` on strings: code-point lexicographic order, a proper
      prefix coming first. */
  predicate Less(a: string, b: string) {
    if a == [] then b != []
    else if b == [] then false
    else if a[0] != b[0] then a[0] < b[0]
    else Less(a[1..], b[1..])
  }

  lemma {:induction false} LessIrreflexive(a: string)
    ensures !Less(a, a)
  {
    if a != [] {
      LessIrreflexive(a[1..]);
    }
  }

  lemma {:induction false} LessAsymmetric(a: string, b: string)
    requires Less(a, b)
    ensures !Less(b, a)
  {
    if a != [] && b != [] && a[0] == b[0] {
      LessAsymmetric(a[1..], b[1..]);
    }
  }

  lemma {:induction false} LessTransitive(a: string, b: string, c: string)
    requires Less(a, b) && Less(b, c)
    ensures Less(a, c)
  {
    if a != [] && a[0] == b[0] && b[0] == c[0] {
      LessTransitive(a[1..], b[1..], c[1..]);
    }
  }

  lemma {:induction false} LessTotal(a: string, b: string)
    ensures a == b || Less(a, b) || Less(b, a)
  {
    if a != [] && b != [] && a[0] == b[0] {
      LessTotal(a[1..], b[1..]);
      if a[1..] == b[1..] {
        assert a == [a[0]] + a[1..] && b == [b[0]] + b[1..];
      }
    }
  }

  /** "at least": `b <= a` in Python's order. */
  predicate AtLeast(a: string, b: string) {
    !Less(a, b)
  }

  lemma {:induction false} AtLeastTransitive(a: string, b: string, c: string)
    requires AtLeast(a, b) && AtLeast(b, c)
    ensures AtLeast(a, c)
  {
    if Less(a, c) {
      LessTotal(a, b);
      if a == b {
      } else if Less(b, a) {
        LessTransitive(b, a, c);
      }
    }
  }

  /** Keys never increase from left to right. */
  predicate SortedDesc<T>(s: seq<T>, key: T -> string) {
    forall i, j :: 0 <= i < j < |s| ==> AtLeast(key(s[i]), key(s[j]))
  }

  /** The elements of `s` whose key is `k`, in their order in `s`. */
  function WithKey<T>(s: seq<T>, key: T -> string, k: string): seq<T> {
    if s == [] then []
    else (if key(s[0]) == k then [s[0]] else []) + WithKey(s[1..], key, k)
  }

  lemma {:induction false} WithKeyAppend<T>(a: seq<T>, b: seq<T>, key: T -> string, k: string)
    ensures WithKey(a + b, key, k) == WithKey(a, key, k) + WithKey(b, key, k)
    decreases |a|
  {
    if a == [] {
      assert a + b == b;
    } else {
      var ab := a + b;
      assert ab[0] == a[0];
      assert ab[1..] == a[1..] + b;
      var head := if key(a[0]) == k then [a[0]] else [];
      assert WithKey(ab, key, k) == head + WithKey(a[1..] + b, key, k);
      WithKeyAppend(a[1..], b, key, k);
      assert WithKey(a, key, k) == head + WithKey(a[1..], key, k);
    }
  }

  lemma {:induction false} WithKeyNone<T>(s: seq<T>, key: T -> string, k: string)
    requires forall i :: 0 <= i < |s| ==> key(s[i]) != k
    ensures WithKey(s, key, k) == []
    decreases |s|
  {
    if s != [] {
      WithKeyNone(s[1..], key, k);
    }
  }

  /** Places `x` after every element whose key is at least `x`'s. */
  function InsertDesc<T>(x: T, s: seq<T>, key: T -> string): (r: seq<T>)
    ensures |r| == |s| + 1
    ensures r[0] == x || (s != [] && r[0] == s[0])
  {
    if s == [] then [x]
    else if AtLeast(key(s[0]), key(x)) then [s[0]] + InsertDesc(x, s[1..], key)
    else [x] + s
  }

  /** Inserting adds exactly `x`. */
  lemma {:induction false} InsertDescPermutes<T>(x: T, s: seq<T>, key: T -> string)
    ensures multiset(InsertDesc(x, s, key)) == multiset(s) + multiset{x}
    decreases |s|
  {
    if s != [] {
      assert s == [s[0]] + s[1..];
      if AtLeast(key(s[0]), key(x)) {
        InsertDescPermutes(x, s[1..], key);
      }
    }
  }

  lemma {:induction false} InsertDescSorted<T>(x: T, s: seq<T>, key: T -> string)
    requires SortedDesc(s, key)
    ensures SortedDesc(InsertDesc(x, s, key), key)
    decreases |s|
  {
    var r := InsertDesc(x, s, key);
    if s == [] {
    } else if AtLeast(key(s[0]), key(x)) {
      InsertDescSorted(x, s[1..], key);
      var t := InsertDesc(x, s[1..], key);
      assert r == [s[0]] + t;
      forall j | 1 <= j < |r|
        ensures AtLeast(key(r[0]), key(r[j]))
      {
        assert t[0] == x || t[0] == s[1];
        if j > 1 {
          AtLeastTransitive(key(s[0]), key(t[0]), key(t[j - 1]));
        }
      }
    } else {
      LessAsymmetric(key(s[0]), key(x));
      forall j | 1 <= j < |r|
        ensures AtLeast(key(r[0]), key(r[j]))
      {
        if j > 1 {
          AtLeastTransitive(key(x), key(s[0]), key(s[j - 1]));
        }
      }
    }
  }

  lemma {:induction false} SortedDescTail<T>(s: seq<T>, key: T -> string)
    requires s != [] && SortedDesc(s, key)
    ensures SortedDesc(s[1..], key)
  {
    var t := s[1..];
    forall i, j | 0 <= i < j < |t| ensures AtLeast(key(t[i]), key(t[j])) {
      assert t[i] == s[i + 1] && t[j] == s[j + 1];
    }
  }

  /** Inserting keeps, for every key, the relative order of the elements
      already there and puts `x` after all of them. */
  lemma {:induction false} InsertDescStable<T>(x: T, s: seq<T>, key: T -> string, k: string)
    requires SortedDesc(s, key)
    ensures WithKey(InsertDesc(x, s, key), key, k)
         == WithKey(s, key, k) + (if key(x) == k then [x] else [])
    decreases |s|
  {
    if s == [] {
      assert InsertDesc(x, s, key) == [x];
      assert WithKey([x], key, k) == (if key(x) == k then [x] else []) + WithKey([x][1..], key, k);
      assert [x][1..] == [];
    } else if AtLeast(key(s[0]), key(x)) {
      SortedDescTail(s, key);
      InsertDescStable(x, s[1..], key, k);
      InsertDescStableBehind(x, s, key, k);
    } else {
      InsertDescStableFront(x, s, key, k);
    }
  }

  /** The case where `x` goes behind the first element. */
  lemma {:induction false} InsertDescStableBehind<T>(x: T, s: seq<T>, key: T -> string, k: string)
    requires s != [] && AtLeast(key(s[0]), key(x))
    requires WithKey(InsertDesc(x, s[1..], key), key, k)
          == WithKey(s[1..], key, k) + (if key(x) == k then [x] else [])
    ensures WithKey(InsertDesc(x, s, key), key, k)
         == WithKey(s, key, k) + (if key(x) == k then [x] else [])
  {
    var r := InsertDesc(x, s, key);
    var t := InsertDesc(x, s[1..], key);
    var head := if key(s[0]) == k then [s[0]] else [];
    var tail := if key(x) == k then [x] else [];
    assert r == [s[0]] + t;
    assert r[0] == s[0] && r[1..] == t;
    assert WithKey(r, key, k) == head + WithKey(t, key, k);
    assert WithKey(s, key, k) == head + WithKey(s[1..], key, k);
    assert head + (WithKey(s[1..], key, k) + tail) == (head + WithKey(s[1..], key, k)) + tail;
  }

  /** The case where `x` goes first: no element already there has `x`'s key. */
  lemma {:induction false} InsertDescStableFront<T>(x: T, s: seq<T>, key: T -> string, k: string)
    requires SortedDesc(s, key) && s != [] && !AtLeast(key(s[0]), key(x))
    ensures WithKey(InsertDesc(x, s, key), key, k)
         == WithKey(s, key, k) + (if key(x) == k then [x] else [])
  {
    var r := InsertDesc(x, s, key);
    assert r == [x] + s;
    assert r[0] == x && r[1..] == s;
    assert WithKey(r, key, k) == (if key(x) == k then [x] else []) + WithKey(s, key, k);
    if key(x) == k {
      LessIrreflexive(key(x));
      forall i | 0 <= i < |s|
        ensures key(s[i]) != k
      {
        if i > 0 {
          assert AtLeast(key(s[0]), key(s[i]));
        }
      }
      WithKeyNone(s, key, k);
    }
  }

  /** `sorted(xs, key=key, reverse=True)`: inserts the elements one by one in
      input order. */
  function SortDesc<T>(xs: seq<T>, key: T -> string): (r: seq<T>)
    ensures |r| == |xs|
    decreases |xs|
  {
    if xs == [] then []
    else InsertDesc(xs[|xs| - 1], SortDesc(xs[..|xs| - 1], key), key)
  }

  /** The result is a permutation of the input. */
  lemma {:induction false} SortDescPermutes<T>(xs: seq<T>, key: T -> string)
    ensures multiset(SortDesc(xs, key)) == multiset(xs)
    decreases |xs|
  {
    if xs != [] {
      var init := xs[..|xs| - 1];
      var x := xs[|xs| - 1];
      SortDescPermutes(init, key);
      InsertDescPermutes(x, SortDesc(init, key), key);
      assert xs == init + [x];
    }
  }

  /** The result is ordered by key, newest (greatest) first. */
  lemma {:induction false} SortDescSorted<T>(xs: seq<T>, key: T -> string)
    ensures SortedDesc(SortDesc(xs, key), key)
    decreases |xs|
  {
    if xs != [] {
      SortDescSorted(xs[..|xs| - 1], key);
      InsertDescSorted(xs[|xs| - 1], SortDesc(xs[..|xs| - 1], key), key);
    }
  }

  /** Stability: elements with equal keys keep their input order. */
  lemma {:induction false} SortDescStable<T>(xs: seq<T>, key: T -> string, k: string)
    ensures WithKey(SortDesc(xs, key), key, k) == WithKey(xs, key, k)
    decreases |xs|
  {
    if xs != [] {
      var init := xs[..|xs| - 1];
      var x := xs[|xs| - 1];
      SortDescSorted(init, key);
      SortDescStable(init, key, k);
      InsertDescStable(x, SortDesc(init, key), key, k);
      SortDescLast(xs, key);
      WithKeySnoc(init, x, key, k);
      assert xs == init + [x];
    }
  }

  lemma {:induction false} SortDescLast<T>(xs: seq<T>, key: T -> string)
    requires xs != []
    ensures SortDesc(xs, key) == InsertDesc(xs[|xs| - 1], SortDesc(xs[..|xs| - 1], key), key)
  {
  }

  lemma {:induction false} WithKeySnoc<T>(s: seq<T>, x: T, key: T -> string, k: string)
    ensures WithKey(s + [x], key, k) == WithKey(s, key, k) + (if key(x) == k then [x] else [])
  {
    WithKeyAppend(s, [x], key, k);
    assert [x][1..] == [];
    assert WithKey([x], key, k) == (if key(x) == k then [x] else []) + WithKey([x][1..], key, k);
  }
}

=== FILE: support.dfy ===
/** The support responder: keyword dispatch over the lower-cased query to
    the account, transaction, transfer-diagnosis and ticket tools, with a
    request for the user id when the query needs one and a language-model
    answer for everything else. The language model is an outside call,
    given as `Backend` fields; the data file is the `Store` value. */
module Support {
  import opened Wrappers
  import opened Text
  import opened Numbers
  import opened Locale
  import opened UserStore

  /** The tool a response came from (`tool_used`, absent for `None`). */
  datatype SupportTool = AccountDetails | RecentTransactions | DiagnoseTransfers | OpenTicket

  function ToolUsedName(t: SupportTool): string {
    match t
    case AccountDetails => "get_account_details"
    case RecentTransactions => "get_recent_transactions"
    case DiagnoseTransfers => "diagnose_transfers"
    case OpenTicket => "open_support_ticket"
  }

  /** A response: answer, `tool_used` and `requires_user_id`. */
  datatype SupportResult = SupportResult(answer: string, toolUsed: Option<SupportTool>, requiresUserId: bool)

  /** The verified facts handed to the summarising model. */
  datatype TransferFacts = TransferFacts(status: string, balance: string, pending: nat, failed: nat)

  /** The outside calls. `general` answers a query under the support system
      prompt (always built for Portuguese, so it does not see the language
      tag); `summarize` rewrites the transfer facts for the query. */
  datatype Backend = Backend(
    general: string -> Outcome<string>,
    summarize: (string, TransferFacts, string) -> Outcome<string>)

  /** Python truthiness of the optional user id. */
  predicate HasUserId(userId: Option<string>) {
    userId.Some? && userId.value != ""
  }

  // ---------------------------------------------------------------------
  // Keyword lists

  const UserIdKeywords: seq<string> := [
    "saldo", "conta", "transações", "extrato", "histórico", "movimentações", "transferência",
    "transferências", "account", "balance", "transactions", "statement", "transfer", "transfers",
    "login", "sign in"]

  const AccountKeywords: seq<string> := [
    "saldo", "conta", "account", "balance", "login", "sign in", "access", "perfil", "profile"]

  const TransactionKeywords: seq<string> := [
    "transações", "extrato", "histórico", "movimentações", "transactions", "statement", "history"]

  const TransferKeywords: seq<string> := [
    "transfer", "transfers", "transferência", "transferências", "transferir", "pix"]

  const TicketKeywords: seq<string> := [
    "suporte", "ajuda", "problema", "ticket", "assistência", "help", "problem"]

  /** `_requires_user_id` */
  predicate RequiresUserId(query: string) {
    ContainsAny(Lower(query), UserIdKeywords)
  }

  /** "contato" holds "conta", so asking how to get in touch counts as an
      account question. */
  lemma {:induction false} ContactNeedsUserId()
    ensures RequiresUserId("entrar em contato")
  {
    var q := "entrar em contato";
    assert q == "entrar em " + UserIdKeywords[1] + "to";
    LowerUnchanged(q);
    ContainsMiddle("entrar em ", UserIdKeywords[1], "to");
  }

  // ---------------------------------------------------------------------
  // Extraction

  /** The position of the first ASCII digit, or `|s|`. */
  function FirstDigit(s: string): (i: nat)
    ensures i <= |s|
    ensures i < |s| ==> IsDigit(s[i])
    ensures forall j :: 0 <= j < i ==> !IsDigit(s[j])
  {
    if s == [] || IsDigit(s[0]) then 0 else 1 + FirstDigit(s[1..])
  }

  /** The length of the run of digits `s` starts with. */
  function DigitRun(s: string): (n: nat)
    ensures n <= |s|
    ensures forall j :: 0 <= j < n ==> IsDigit(s[j])
    ensures n == |s| || !IsDigit(s[n])
  {
    if s == [] || !IsDigit(s[0]) then 0 else 1 + DigitRun(s[1..])
  }

  /** The value of the first run of digits, `int(re.findall(r'\d+', s)[0])`. */
  function FirstNumber(s: string): Option<nat> {
    var i := FirstDigit(s);
    if i == |s| then None
    else
      var t := s[i..];
      Some(DigitsValue(t[..DigitRun(t)]))
  }

  function Clamp(n: int, lo: int, hi: int): int {
    if n < lo then lo else if n > hi then hi else n
  }

  /** `_extract_limit`: the first number of the query, clamped to 1..50,
      else 5. */
  function ExtractLimit(query: string): (limit: int)
    ensures 1 <= limit <= 50
    ensures (forall j :: 0 <= j < |query| ==> !IsDigit(query[j])) ==> limit == 5
  {
    match FirstNumber(query)
    case None => 5
    case Some(n) => Clamp(n, 1, 50)
  }

  /** A number written after text without digits is the limit, clamped. */
  lemma {:induction false} ExtractLimitOf(pre: string, n: nat, post: string)
    requires forall j :: 0 <= j < |pre| ==> !IsDigit(pre[j])
    requires post == [] || !IsDigit(post[0])
    ensures ExtractLimit(pre + NatToString(n) + post) == Clamp(n, 1, 50)
  {
    var d := NatToString(n);
    var s := pre + d + post;
    assert s[|pre|] == d[0];
    assert forall j :: 0 <= j < |pre| ==> s[j] == pre[j];
    assert IsDigit(s[|pre|]);
    var i := FirstDigit(s);
    assert i == |pre|;
    var t := s[i..];
    assert t == d + post;
    var k := DigitRun(t);
    assert forall j :: 0 <= j < |d| ==> t[j] == d[j];
    assert |t| > |d| ==> t[|d|] == post[0];
    assert k == |d|;
    assert t[..k] == d;
    DigitsValueOfNatToString(n);
  }

  /** `_extract_ticket_info`: for a query of more than five words, the first
      sentence (at most 100 characters) as subject and the query (at most
      1000 characters) as description. */
  function ExtractTicketInfo(query: string): (r: Option<(string, string)>)
    ensures r.Some? <==> |Words(query)| > 5
    ensures r.Some? ==>
      var cut := IndexOfChar(query, '.');
      && r.value.0 == query[..if cut <= 100 then cut else 100]
      && r.value.1 == query[..if |query| <= 1000 then |query| else 1000]
  {
    if |Words(query)| > 5 then
      var first := SplitOn(query, '.')[0];
      Some((PyPrefix(first, 100), PyPrefix(query, 1000)))
    else None
  }

  /** The subject never runs past the first full stop and always starts the
      description. */
  lemma {:induction false} TicketSubjectStartsDescription(query: string)
    requires ExtractTicketInfo(query).Some?
    ensures var (subject, description) := ExtractTicketInfo(query).value;
      && '.' !in subject && |subject| <= 100
      && IsPrefix(subject, description)
  {
    var (subject, description) := ExtractTicketInfo(query).value;
    var cut := IndexOfChar(query, '.');
    var m := if cut <= 100 then cut else 100;
    assert subject == query[..m];
    forall j | 0 <= j < |subject| ensures subject[j] != '.' {
      assert subject[j] == query[j];
    }
    var e := if |query| <= 1000 then |query| else 1000;
    assert description == query[..e];
    assert description[..m] == subject;
  }

  // ---------------------------------------------------------------------
  // Fixed answers

  const AskEn := "To check your account or transactions I need your user ID. Please provide your user_id so I can securely verify your information and help you faster."
  const AskPt := "Para verificar sua conta ou transações, preciso do seu ID de usuário. Por favor, me informe seu user_id para que eu possa verificar com segurança e ajudar mais rápido."
  const TicketHelpEn := "I can help you create a support ticket! 🎫\n\nTo log your issue, I need:\n1. A brief subject (e.g., 'Problem with card machine')\n2. A detailed description of the problem\n\nPlease tell me what issue you are facing."
  const TicketHelpPt := "Posso ajudar você a criar um ticket de suporte! 🎫\n\nPara registrar seu problema, preciso de:\n1. Um breve assunto (ex: 'Problema com maquininha')\n2. Descrição detalhada do problema\n\nPor favor, me diga qual é o problema que você está enfrentando."
  const GeneralEn := "I understand you're facing difficulties. I can help you with:\n\n💰 **Account data** - balance, registration information\n📊 **Transactions** - history of payments and withdrawals\n🎫 **Support** - create tickets for issues\n\nHow can I best help you today? If you need specific account information, please provide your user ID."
  const GeneralPt := "Entendo que você está enfrentando dificuldades. Posso ajudar você com:\n\n💰 **Dados da conta** - saldo, informações cadastrais\n📊 **Transações** - histórico de pagamentos e saques\n🎫 **Suporte** - criar tickets para problemas\n\nQual seria a melhor forma de ajudar você hoje? Se precisar de informações específicas da conta, me diga seu ID de usuário."

  /** The request for a user id. */
  function AskForUserId(lang: string): (r: SupportResult)
    ensures r.toolUsed.None? && r.requiresUserId
    ensures IsEnglish(lang) ==> r.answer == AskEn
    ensures !IsEnglish(lang) ==> r.answer == AskPt
  {
    SupportResult(if IsEnglish(lang) then AskEn else AskPt, None, true)
  }

  /** `_handle_general_support_query`: the model's answer, stripped, or the
      menu of what support can do when the call raises. */
  function GeneralSupport(b: Backend, query: string, lang: string): (r: SupportResult)
    ensures r.toolUsed.None? && !r.requiresUserId
    ensures b.general(query).Returned? ==> r.answer == Strip(b.general(query).value)
    ensures b.general(query).Raised? ==> r.answer == if IsEnglish(lang) then GeneralEn else GeneralPt
  {
    match b.general(query)
    case Returned(text) => SupportResult(Strip(text), None, false)
    case Raised => SupportResult(if IsEnglish(lang) then GeneralEn else GeneralPt, None, false)
  }

  // ---------------------------------------------------------------------
  // Transfer diagnosis

  /** How many of `txns` have the given status. */
  function CountStatus(txns: seq<Transaction>, status: string): (n: nat)
    ensures n <= |txns|
  {
    if txns == [] then 0
    else (if txns[0].status == status then 1 else 0) + CountStatus(txns[1..], status)
  }

  /** The statuses of `txns`, in order. */
  function Statuses(txns: seq<Transaction>): (r: seq<string>)
    ensures |r| == |txns|
    ensures forall i :: 0 <= i < |txns| ==> r[i] == txns[i].status
  {
    if txns == [] then [] else [txns[0].status] + Statuses(txns[1..])
  }

  /** The count is the multiplicity of the status among the transactions'
      statuses: the `sum(1 for t in recent if ...)` reading. */
  lemma {:induction false} CountStatusIsMultiplicity(txns: seq<Transaction>, status: string)
    ensures CountStatus(txns, status) == multiset(Statuses(txns))[status]
  {
    if txns != [] {
      CountStatusIsMultiplicity(txns[1..], status);
      assert Statuses(txns) == [txns[0].status] + Statuses(txns[1..]);
    }
  }

  /** Counting distributes over concatenation. */
  lemma {:induction false} CountStatusAppend(a: seq<Transaction>, b: seq<Transaction>, status: string)
    ensures CountStatus(a + b, status) == CountStatus(a, status) + CountStatus(b, status)
  {
    if a != [] {
      assert (a + b)[1..] == a[1..] + b;
      assert (a + b)[0] == a[0];
      CountStatusAppend(a[1..], b, status);
    } else {
      assert a + b == b;
    }
  }

  /** A transaction has one status, so two counts never exceed the list. */
  lemma {:induction false} CountStatusDisjoint(txns: seq<Transaction>, a: string, b: string)
    requires a != b
    ensures CountStatus(txns, a) + CountStatus(txns, b) <= |txns|
  {
    if txns != [] {
      CountStatusDisjoint(txns[1..], a, b);
    }
  }

  /** The facts for a user: status, the balance as `R$ 1.234,56`, and the
      pending and failed counts among the five newest transactions. */
  function TransferFactsOf(store: Store, u: User): (f: TransferFacts)
    ensures f.status == u.status && f.balance == BrazilianAmount(u.balance)
    ensures f.pending == multiset(Statuses(GetUserTransactions(store, u.id, 5)))["pending"]
    ensures f.failed == multiset(Statuses(GetUserTransactions(store, u.id, 5)))["failed"]
    ensures f.pending + f.failed <= 5
  {
    var recent := GetUserTransactions(store, u.id, 5);
    CountStatusDisjoint(recent, "pending", "failed");
    CountStatusIsMultiplicity(recent, "pending");
    CountStatusIsMultiplicity(recent, "failed");
    TransferFacts(u.status, FormatBRL(u.balance), CountStatus(recent, "pending"), CountStatus(recent, "failed"))
  }

  /** `_summarize_support_facts_with_llm`: the stripped text, `None` when it
      is empty or the call raises. */
  function Summarize(b: Backend, query: string, facts: TransferFacts, lang: string): (r: Option<string>)
    ensures r.Some? ==> r.value != [] && IsStripped(r.value)
    ensures r.None? <==> b.summarize(query, facts, lang).Raised? || Strip(b.summarize(query, facts, lang).value) == []
  {
    match b.summarize(query, facts, lang)
    case Raised => None
    case Returned(text) =>
      var s := Strip(text);
      if s == [] then None else Some(s)
  }

  const BlockedHeadEn := "I checked your account and transfers are currently unavailable because your account status is "
  const BlockedTailEn := ". This usually blocks PIX and bank transfers.\n\nWhat you can do now:\n- Confirm your registration/identity (if requested in the app).\n- Resolve any pending compliance or security review.\n- If you need, I can open a support ticket right away to speed this up."
  const BlockedHeadPt := "Verifiquei sua conta e as transferências estão indisponíveis porque o status da sua conta é "
  const BlockedTailPt := ". Isso normalmente bloqueia PIX e transferências bancárias.\n\nO que você pode fazer agora:\n- Confirmar seus dados/identidade (se o app solicitar).\n- Resolver pendências de conformidade ou revisão de segurança.\n- Se quiser, eu já abro um ticket de suporte para agilizar."
  const ActiveHeadEn := "Your account is active. Here is a quick check to understand transfers: \n- Available balance: "
  const ActiveHeadPt := "Sua conta está ativa. Aqui vai um check rápido para entender as transferências: \n- Saldo disponível: "

  function Quoted(s: string): string {
    "'" + s + "'"
  }

  function ActiveRestEn(f: TransferFacts): string {
    ".\n- Recent transactions: " + NatToString(f.pending) + " pending, " + NatToString(f.failed) + " failed.\n\n"
    + "If you're seeing errors when transferring, please try: \n1) Confirm the recipient data and amount.\n2) Check if there are any app updates pending.\n3) Try again in a few minutes (temporary network issues).\n\nWant me to open a support ticket describing this transfer issue for you?"
  }

  function ActiveRestPt(f: TransferFacts): string {
    ".\n- Transações recentes: " + NatToString(f.pending) + " pendentes, " + NatToString(f.failed) + " com falha.\n\n"
    + "Se você estiver vendo erro ao transferir, tente: \n1) Confirmar os dados do destinatário e o valor.\n2) Verificar se há atualização pendente do app.\n3) Tentar novamente em alguns minutos (instabilidade temporária).\n\nQuer que eu abra um ticket de suporte descrevendo esse problema de transferência para você?"
  }

  /** The fixed transfer answer when the model gives none: a blocked
      account names its status in quotes, an active one shows the balance. */
  function TransferTemplate(f: TransferFacts, lang: string): (answer: string)
    ensures f.status != "active" ==> Contains(answer, Quoted(f.status))
    ensures f.status == "active" ==> Contains(answer, f.balance)
  {
    if StartsWithEn(lang) then
      if f.status != "active" then
        ContainsMiddle(BlockedHeadEn, Quoted(f.status), BlockedTailEn);
        BlockedHeadEn + Quoted(f.status) + BlockedTailEn
      else
        ContainsMiddle(ActiveHeadEn, f.balance, ActiveRestEn(f));
        ActiveHeadEn + f.balance + ActiveRestEn(f)
    else
      if f.status != "active" then
        ContainsMiddle(BlockedHeadPt, Quoted(f.status), BlockedTailPt);
        BlockedHeadPt + Quoted(f.status) + BlockedTailPt
      else
        ContainsMiddle(ActiveHeadPt, f.balance, ActiveRestPt(f));
        ActiveHeadPt + f.balance + ActiveRestPt(f)
  }

  /** The transfer branch for a given user id: not found, the model's
      summary of the facts, or the template. */
  function DiagnoseTransfersFor(store: Store, b: Backend, query: string, userId: string, lang: string)
    : (r: SupportResult)
    ensures !r.requiresUserId
    ensures GetUserById(store, userId).None? ==> r.toolUsed.None?
    ensures GetUserById(store, userId).Some? ==>
      var f := TransferFactsOf(store, GetUserById(store, userId).value);
      && r.toolUsed == Some(DiagnoseTransfers)
      && (Summarize(b, query, f, lang).Some? ==> r.answer == Summarize(b, query, f, lang).value)
      && (Summarize(b, query, f, lang).None? ==> r.answer == TransferTemplate(f, lang))
  {
    match GetUserById(store, userId)
    case None =>
      var answer := if IsEnglish(lang) then "User " + userId + " not found."
                    else "❌ Usuário " + userId + " não encontrado.";
      SupportResult(answer, None, false)
    case Some(u) =>
      var f := TransferFactsOf(store, u);
      match Summarize(b, query, f, lang)
      case Some(text) => SupportResult(text, Some(DiagnoseTransfers), false)
      case None => SupportResult(TransferTemplate(f, lang), Some(DiagnoseTransfers), false)
  }

  // ---------------------------------------------------------------------
  // The responder

  /** `process_query`. `now` is the creation time a new ticket gets; the
      store comes back changed only when a ticket was opened. */
  function ProcessQuery(store: Store, b: Backend, query: string, userId: Option<string>, lang: string, now: string)
    : (r: (SupportResult, Store))
    // a query that needs a user id and has none gets the request, and nothing else happens
    ensures RequiresUserId(query) && !HasUserId(userId) ==> r == (AskForUserId(lang), store)
    // every tool runs on behalf of a user id; a response asking for one had none
    ensures r.0.toolUsed.Some? ==> HasUserId(userId)
    ensures r.0.requiresUserId ==> !HasUserId(userId)
    // the account keywords are checked first
    ensures HasUserId(userId) && ContainsAny(Lower(query), AccountKeywords) ==>
      r.0 == SupportResult(GetAccountDetails(store, userId.value), Some(AccountDetails), false)
    // a ticket is opened exactly when the query reaches the ticket keywords
    // with a user id, a subject and a description
    ensures var q := Lower(query);
      var info := ExtractTicketInfo(query);
      r.0.toolUsed == Some(OpenTicket) <==>
        && HasUserId(userId)
        && !ContainsAny(q, AccountKeywords) && !ContainsAny(q, TransactionKeywords)
        && !ContainsAny(q, TransferKeywords) && ContainsAny(q, TicketKeywords)
        && info.Some? && info.value.0 != "" && info.value.1 != ""
    // past the user-id check, the keyword groups pick the branch in order
    ensures var q := Lower(query);
      !(RequiresUserId(query) && !HasUserId(userId))
      && (ContainsAny(q, AccountKeywords) || ContainsAny(q, TransactionKeywords) || ContainsAny(q, TransferKeywords))
      ==> r == (DataAnswer(store, b, query, userId, lang), store)
    ensures var q := Lower(query);
      !(RequiresUserId(query) && !HasUserId(userId))
      && !ContainsAny(q, AccountKeywords) && !ContainsAny(q, TransactionKeywords) && !ContainsAny(q, TransferKeywords)
      && ContainsAny(q, TicketKeywords)
      ==> r == TicketAnswer(store, query, userId, lang, now)
    ensures var q := Lower(query);
      !(RequiresUserId(query) && !HasUserId(userId))
      && !ContainsAny(q, AccountKeywords) && !ContainsAny(q, TransactionKeywords) && !ContainsAny(q, TransferKeywords)
      && !ContainsAny(q, TicketKeywords)
      ==> r == (GeneralSupport(b, query, lang), store)
    // only an opened ticket changes the store, by appending one ticket of this user
    ensures r.1 == store || (
      && r.0.toolUsed == Some(OpenTicket)
      && r.1.users == store.users && r.1.transactions == store.transactions
      && |r.1.tickets| == |store.tickets| + 1
      && r.1.tickets[..|store.tickets|] == store.tickets
      && r.1.tickets[|store.tickets|].userId == userId.value)
  {
    var q := Lower(query);
    if RequiresUserId(query) && !HasUserId(userId) then (AskForUserId(lang), store)
    else if ContainsAny(q, AccountKeywords) || ContainsAny(q, TransactionKeywords)
            || ContainsAny(q, TransferKeywords) then
      (DataAnswer(store, b, query, userId, lang), store)
    else if ContainsAny(q, TicketKeywords) then TicketAnswer(store, query, userId, lang, now)
    else (GeneralSupport(b, query, lang), store)
  }

  /** The account, transaction and transfer branches, checked in that order;
      without a user id each falls through to the general answer. */
  function DataAnswer(store: Store, b: Backend, query: string, userId: Option<string>, lang: string)
    : (r: SupportResult)
    ensures !r.requiresUserId
    ensures r.toolUsed.Some? ==> HasUserId(userId) && r.toolUsed != Some(OpenTicket)
    ensures !HasUserId(userId) ==> r == GeneralSupport(b, query, lang)
    ensures HasUserId(userId) && ContainsAny(Lower(query), AccountKeywords) ==>
      r == SupportResult(GetAccountDetails(store, userId.value), Some(AccountDetails), false)
    ensures HasUserId(userId) && !ContainsAny(Lower(query), AccountKeywords)
            && ContainsAny(Lower(query), TransactionKeywords) ==>
      r == SupportResult(GetRecentTransactions(store, userId.value, ExtractLimit(query)), Some(RecentTransactions), false)
    ensures HasUserId(userId) && !ContainsAny(Lower(query), AccountKeywords)
            && !ContainsAny(Lower(query), TransactionKeywords) && ContainsAny(Lower(query), TransferKeywords) ==>
      r == DiagnoseTransfersFor(store, b, query, userId.value, lang)
    ensures HasUserId(userId) && !ContainsAny(Lower(query), AccountKeywords)
            && !ContainsAny(Lower(query), TransactionKeywords) && !ContainsAny(Lower(query), TransferKeywords) ==>
      r == GeneralSupport(b, query, lang)
  {
    var q := Lower(query);
    if !HasUserId(userId) then GeneralSupport(b, query, lang)
    else if ContainsAny(q, AccountKeywords) then
      SupportResult(GetAccountDetails(store, userId.value), Some(AccountDetails), false)
    else if ContainsAny(q, TransactionKeywords) then
      var listing := GetRecentTransactions(store, userId.value, ExtractLimit(query));
      SupportResult(listing, Some(RecentTransactions), false)
    else if ContainsAny(q, TransferKeywords) then DiagnoseTransfersFor(store, b, query, userId.value, lang)
    else GeneralSupport(b, query, lang)
  }

  /** The ticket branch: open a ticket given a user id, a subject and a
      description, otherwise explain what a ticket needs. */
  function TicketAnswer(store: Store, query: string, userId: Option<string>, lang: string, now: string)
    : (r: (SupportResult, Store))
    ensures var info := ExtractTicketInfo(query);
      r.0.toolUsed == Some(OpenTicket) <==>
        HasUserId(userId) && info.Some? && info.value.0 != "" && info.value.1 != ""
    ensures r.0.toolUsed.None? || r.0.toolUsed == Some(OpenTicket)
    ensures r.0.requiresUserId <==> userId.None?
    ensures r.0.toolUsed.None? ==>
      r.0.answer == (if IsEnglish(lang) then TicketHelpEn else TicketHelpPt) && r.1 == store
    ensures r.1 == store || (
      && r.0.toolUsed == Some(OpenTicket)
      && r.1.users == store.users && r.1.transactions == store.transactions
      && |r.1.tickets| == |store.tickets| + 1
      && r.1.tickets[..|store.tickets|] == store.tickets
      && r.1.tickets[|store.tickets|].userId == userId.value)
  {
    var info := ExtractTicketInfo(query);
    if HasUserId(userId) && info.Some? && info.value.0 != "" && info.value.1 != "" then
      var (message, store') := OpenSupportTicket(store, userId.value, info.value.0, info.value.1, now);
      (SupportResult(message, Some(OpenTicket), false), store')
    else
      var help := if IsEnglish(lang) then TicketHelpEn else TicketHelpPt;
      (SupportResult(help, None, userId.None?), store)
  }
}

=== FILE: text.dfy ===
/** The handful of Python `str` operations the agents rely on, over
    `string` (= `seq<char>`). Each is defined the way CPython behaves for
    the characters the model covers; case mapping covers ASCII and Latin-1. */
module Text {

  /** `c.isspace()`: the characters CPython treats as whitespace. */
  predicate IsSpace(c: char) {
    var n := c as int;
    (9 <= n <= 13) || (28 <= n <= 32) || n == 0x85 || n == 0xA0 || n == 0x1680
    || (0x2000 <= n <= 0x200A) || n == 0x2028 || n == 0x2029 || n == 0x202F
    || n == 0x205F || n == 0x3000
  }

  predicate IsUpperLetter(c: char) {
    'A' <= c <= 'Z' || ('\U{C0}' <= c <= '\U{DE}' && c != '\U{D7}')
  }

  predicate IsLowerLetter(c: char) {
    'a' <= c <= 'z' || ('\U{E0}' <= c <= '\U{FE}' && c != '\U{F7}')
  }

  /** A character CPython counts as cased in Latin-1: the letters above,
      plus the lower-case letters without a one-character upper form
      inside Latin-1 (ß, ÿ, µ) and the ordinal indicators ª and º. */
  predicate IsCased(c: char) {
    IsUpperLetter(c) || IsLowerLetter(c)
    || c == '\U{DF}' || c == '\U{FF}' || c == '\U{B5}' || c == '\U{AA}' || c == '\U{BA}'
  }

  function LowerChar(c: char): char {
    if IsUpperLetter(c) then (c as int + 32) as char else c
  }

  /** The title-case form of one character, which for ß is two. */
  function TitleChar(c: char): (r: string)
    ensures 1 <= |r| <= 2
  {
    if c == '\U{DF}' then "Ss"
    else if c == '\U{FF}' then ['\U{178}']
    else if c == '\U{B5}' then ['\U{39C}']
    else if IsLowerLetter(c) then [(c as int - 32) as char]
    else [c]
  }

  /** `s.lower()`, one character at a time (so the length is kept). */
  function Lower(s: string): (r: string)
    ensures |r| == |s|
    ensures forall i :: 0 <= i < |s| ==> r[i] == LowerChar(s[i])
  {
    seq(|s|, i requires 0 <= i < |s| => LowerChar(s[i]))
  }

  lemma {:induction false} LowerAppend(a: string, b: string)
    ensures Lower(a + b) == Lower(a) + Lower(b)
  {
  }

  /** A string without upper-case letters is its own lower-case form. */
  lemma {:induction false} LowerUnchanged(s: string)
    requires forall i :: 0 <= i < |s| ==> !IsUpperLetter(s[i])
    ensures Lower(s) == s
  {
  }

  /** `s.title()`: each character is lower-cased when the character before
      it is cased and title-cased otherwise. */
  function Title(s: string): string {
    TitleAfter(s, false)
  }

  function TitleAfter(s: string, prevCased: bool): (r: string)
    ensures |r| >= |s|
  {
    if s == [] then []
    else
      var c := s[0];
      (if prevCased then [LowerChar(c)] else TitleChar(c)) + TitleAfter(s[1..], IsCased(c))
  }

  /** A word of lower-case ASCII letters gets its first letter capitalised
      and keeps the rest ("pending" becomes "Pending"). */
  lemma {:induction false} TitleOfLowerWord(s: string)
    requires s != [] && forall i :: 0 <= i < |s| ==> 'a' <= s[i] <= 'z'
    ensures Title(s) == [(s[0] as int - 32) as char] + s[1..]
  {
    LowerRun(s[1..]);
  }

  lemma {:induction false} LowerRun(s: string)
    requires forall i :: 0 <= i < |s| ==> 'a' <= s[i] <= 'z'
    ensures TitleAfter(s, true) == s
    decreases |s|
  {
    if s != [] {
      LowerRun(s[1..]);
    }
  }

  function LeadingSpaces(s: string): (n: nat)
    ensures n <= |s|
    ensures forall i :: 0 <= i < n ==> IsSpace(s[i])
    ensures n == |s| || !IsSpace(s[n])
  {
    if s == [] || !IsSpace(s[0]) then 0 else 1 + LeadingSpaces(s[1..])
  }

  /** Length of `s` once its trailing whitespace is dropped. */
  function TrailingStart(s: string): (n: nat)
    ensures n <= |s|
    ensures forall i :: n <= i < |s| ==> IsSpace(s[i])
    ensures n == 0 || !IsSpace(s[n - 1])
  {
    if s == [] || !IsSpace(s[|s| - 1]) then |s| else TrailingStart(s[..|s| - 1])
  }

  /** `s.lstrip()` */
  function LStrip(s: string): string {
    s[LeadingSpaces(s)..]
  }

  /** `s.rstrip()` */
  function RStrip(s: string): string {
    s[..TrailingStart(s)]
  }

  /** Where `s.strip()` starts within `s`. */
  function StripStart(s: string): nat {
    LeadingSpaces(s)
  }

  /** `s.strip()`: the longest slice of `s` that neither starts nor ends
      with whitespace. */
  function Strip(s: string): (r: string)
    ensures |r| <= |s|
    ensures StripStart(s) + |r| <= |s| && r == s[StripStart(s)..StripStart(s) + |r|]
    ensures r == [] || (!IsSpace(r[0]) && !IsSpace(r[|r| - 1]))
  {
    var start := LeadingSpaces(s);
    var l := s[start..];
    var len := TrailingStart(l);
    assert l[..len] == s[start..start + len];
    l[..len]
  }

  /** A string that `strip()` leaves as it is. */
  predicate IsStripped(s: string) {
    s == [] || (!IsSpace(s[0]) && !IsSpace(s[|s| - 1]))
  }

  lemma {:induction false} StripOfStripped(s: string)
    requires IsStripped(s)
    ensures Strip(s) == s
  {
    assert LeadingSpaces(s) == 0;
    assert s[0..] == s;
  }

  /** Trailing whitespace after a string that does not end in whitespace
      is what `rstrip()` removes. */
  lemma {:induction false} TrailingStartAfter(p: string, tail: string)
    requires p == [] || !IsSpace(p[|p| - 1])
    requires forall i :: 0 <= i < |tail| ==> IsSpace(tail[i])
    ensures TrailingStart(p + tail) == |p|
    decreases |tail|
  {
    var s := p + tail;
    if tail == [] {
      assert s == p;
    } else {
      var shorter := tail[..|tail| - 1];
      assert s[|s| - 1] == tail[|tail| - 1];
      assert s[..|s| - 1] == p + shorter;
      TrailingStartAfter(p, shorter);
    }
  }

  /** Trailing whitespace after a stripped string is what `strip()` removes. */
  lemma {:induction false} StripTrailingSpace(p: string, tail: string)
    requires p != [] && IsStripped(p)
    requires forall i :: 0 <= i < |tail| ==> IsSpace(tail[i])
    ensures Strip(p + tail) == p
  {
    var s := p + tail;
    assert s[0] == p[0];
    assert LeadingSpaces(s) == 0;
    assert s[0..] == s;
    TrailingStartAfter(p, tail);
    assert s[..|p|] == p;
  }

  /** Length of the run of non-whitespace characters that starts `s`. */
  function WordLen(s: string): (n: nat)
    ensures n <= |s|
    ensures forall i :: 0 <= i < n ==> !IsSpace(s[i])
    ensures n == |s| || IsSpace(s[n])
  {
    if s == [] || IsSpace(s[0]) then 0 else 1 + WordLen(s[1..])
  }

  /** `s.split()`: the maximal runs of non-whitespace characters, in order. */
  function Words(s: string): (ws: seq<string>)
    ensures forall k :: 0 <= k < |ws| ==> 1 <= |ws[k]| <= |s|
    decreases |s|
  {
    var t := LStrip(s);
    if t == [] then []
    else
      var n := WordLen(t);
      [t[..n]] + Words(t[n..])
  }

  /** Position of the first `c` in `s`, or `|s|` when there is none. */
  function IndexOfChar(s: string, c: char): (i: nat)
    ensures i <= |s|
    ensures i < |s| ==> s[i] == c
    ensures forall j :: 0 <= j < i ==> s[j] != c
  {
    if s == [] then 0 else if s[0] == c then 0 else 1 + IndexOfChar(s[1..], c)
  }

  /** `s.split(sep)` for a one-character separator: never empty, and no
      piece holds the separator. */
  function SplitOn(s: string, sep: char): (parts: seq<string>)
    ensures |parts| >= 1
    ensures forall k :: 0 <= k < |parts| ==> sep !in parts[k]
    ensures parts[0] == s[..IndexOfChar(s, sep)]
    decreases |s|
  {
    var i := IndexOfChar(s, sep);
    if i == |s| then [s] else [s[..i]] + SplitOn(s[i + 1..], sep)
  }

  /** `sep.join(parts)` */
  function Join(parts: seq<string>, sep: string): string {
    if parts == [] then []
    else if |parts| == 1 then parts[0]
    else parts[0] + sep + Join(parts[1..], sep)
  }

  /** Appending to a joined string extends its last part. */
  lemma {:induction false} JoinAppendLast(parts: seq<string>, sep: string, x: string)
    requires |parts| >= 1
    ensures Join(parts, sep) + x == Join(parts[..|parts| - 1] + [parts[|parts| - 1] + x], sep)
    decreases |parts|
  {
    var n := |parts|;
    var parts' := parts[..n - 1] + [parts[n - 1] + x];
    if n == 1 {
      assert parts' == [parts[0] + x];
    } else {
      JoinAppendLast(parts[1..], sep, x);
      assert parts'[0] == parts[0];
      assert parts'[1..] == parts[1..][..n - 2] + [parts[1..][n - 2] + x];
    }
  }

  /** Joining the pieces of a split gives back the string. */
  lemma {:induction false} JoinSplitOn(s: string, sep: char)
    ensures Join(SplitOn(s, sep), [sep]) == s
    decreases |s|
  {
    var i := IndexOfChar(s, sep);
    if i < |s| {
      var a := s[..i];
      var rest := s[i + 1..];
      var parts := SplitOn(rest, sep);
      SplitOnStep(s, sep);
      JoinSplitOn(rest, sep);
      JoinCons(a, parts, [sep]);
      SplitAround(s, i);
    }
  }

  lemma {:induction false} SplitAround(s: string, i: nat)
    requires i < |s|
    ensures s == s[..i] + [s[i]] + s[i + 1..]
  {
  }

  lemma {:induction false} SplitOnStep(s: string, sep: char)
    requires IndexOfChar(s, sep) < |s|
    ensures SplitOn(s, sep) == [s[..IndexOfChar(s, sep)]] + SplitOn(s[IndexOfChar(s, sep) + 1..], sep)
  {
  }

  /** Splitting a join of separator-free pieces gives back the pieces. */
  lemma {:induction false} SplitOnJoin(parts: seq<string>, sep: char)
    requires |parts| >= 1
    requires forall k :: 0 <= k < |parts| ==> sep !in parts[k]
    ensures SplitOn(Join(parts, [sep]), sep) == parts
    decreases |parts|
  {
    var s := Join(parts, [sep]);
    var p := parts[0];
    if |parts| == 1 {
      assert IndexOfChar(s, sep) == |s|;
    } else {
      var rest := Join(parts[1..], [sep]);
      assert s == p + [sep] + rest;
      assert s[|p|] == sep;
      assert IndexOfChar(s, sep) == |p|;
      assert s[..|p|] == p;
      assert s[|p| + 1..] == rest;
      SplitOnJoin(parts[1..], sep);
    }
  }

  predicate IsPrefix(p: string, s: string) {
    |p| <= |s| && s[..|p|] == p
  }

  predicate IsSuffix(p: string, s: string) {
    |p| <= |s| && s[|s| - |p|..] == p
  }

  /** `sub` occurs in `s` starting at position `j`. */
  predicate OccursAt(s: string, sub: string, j: int) {
    0 <= j && j + |sub| <= |s| && s[j..j + |sub|] == sub
  }

  lemma {:induction false} OccursShift(s: string, sub: string, j: int)
    requires s != [] && 1 <= j
    ensures OccursAt(s, sub, j) <==> OccursAt(s[1..], sub, j - 1)
  {
    if j + |sub| <= |s| {
      var t := s[1..];
      var a := s[j..j + |sub|];
      var b := t[j - 1..j - 1 + |sub|];
      forall k | 0 <= k < |sub| ensures a[k] == b[k] {
        assert a[k] == s[j + k] == t[j - 1 + k];
      }
      assert a == b;
    }
  }

  /** `s.find(sub)`: the first position where `sub` occurs, or -1. */
  function Find(s: string, sub: string): (i: int)
    ensures -1 <= i
    ensures i >= 0 ==> OccursAt(s, sub, i)
    ensures i >= 0 ==> forall j :: 0 <= j < i ==> !OccursAt(s, sub, j)
    ensures i < 0 ==> forall j :: !OccursAt(s, sub, j)
    decreases |s|
  {
    if IsPrefix(sub, s) then 0
    else if s == [] then -1
    else
      var k := Find(s[1..], sub);
      forall j | 1 <= j ensures OccursAt(s, sub, j) <==> OccursAt(s[1..], sub, j - 1) {
        OccursShift(s, sub, j);
      }
      assert !OccursAt(s, sub, 0);
      if k < 0 then -1 else k + 1
  }

  /** `sub in s` */
  predicate Contains(s: string, sub: string) {
    Find(s, sub) >= 0
  }

  /** `any(x in s for x in subs)` */
  predicate ContainsAny(s: string, subs: seq<string>) {
    exists k :: 0 <= k < |subs| && Contains(s, subs[k])
  }

  /** `s.replace(pat, rep)`: scans left to right and replaces every
      non-overlapping occurrence of `pat`. */
  function Replace(s: string, pat: string, rep: string): string
    requires pat != []
    decreases |s|
  {
    if s == [] then []
    else if IsPrefix(pat, s) then rep + Replace(s[|pat|..], pat, rep)
    else [s[0]] + Replace(s[1..], pat, rep)
  }

  lemma {:induction false} JoinCons(a: string, parts: seq<string>, sep: string)
    requires |parts| >= 1
    ensures Join([a] + parts, sep) == a + sep + Join(parts, sep)
  {
    assert ([a] + parts)[1..] == parts;
  }

  /** A string without `pat` is left as it is. */
  lemma {:induction false} ReplaceAbsent(s: string, pat: string, rep: string)
    requires pat != []
    requires !Contains(s, pat)
    ensures Replace(s, pat, rep) == s
    decreases |s|
  {
    if s != [] {
      assert !OccursAt(s, pat, 0);
      assert !IsPrefix(pat, s) by {
        if |pat| <= |s| {
          assert s[..|pat|] == s[0..|pat|];
        }
      }
      forall j | 0 <= j ensures !OccursAt(s[1..], pat, j) {
        OccursShift(s, pat, j + 1);
      }
      ReplaceAbsent(s[1..], pat, rep);
    }
  }

  /** `s.split(sep)` for a non-empty separator: the pieces between the
      occurrences of `sep`, found left to right. */
  function SplitStr(s: string, sep: string): (parts: seq<string>)
    requires sep != []
    ensures |parts| >= 1
    ensures forall k :: 0 <= k < |parts| ==> !Contains(parts[k], sep)
    decreases |s|
  {
    var i := Find(s, sep);
    if i < 0 then [s]
    else
      var head := s[..i];
      assert !Contains(head, sep) by {
        forall p | 0 <= p ensures !OccursAt(head, sep, p) {
          OccursInPrefix(s, sep, i, p);
        }
      }
      [head] + SplitStr(s[i + |sep|..], sep)
  }

  lemma ReplaceMiss(s: string, pat: string, rep: string)
    requires pat != [] && s != [] && !OccursAt(s, pat, 0)
    ensures Replace(s, pat, rep) == [s[0]] + Replace(s[1..], pat, rep)
  {
    assert !IsPrefix(pat, s) by {
      if |pat| <= |s| {
        assert s[..|pat|] == s[0..|pat|];
      }
    }
  }

  lemma ReplaceHit(s: string, pat: string, rep: string)
    requires pat != [] && OccursAt(s, pat, 0)
    ensures Replace(s, pat, rep) == rep + Replace(s[|pat|..], pat, rep)
  {
    assert s[..|pat|] == s[0..|pat|];
  }

  /** Positions before the first occurrence of `pat` pass through. */
  lemma {:induction false} ReplaceBefore(s: string, pat: string, rep: string, i: nat)
    requires pat != [] && i <= |s|
    requires forall j :: 0 <= j < i ==> !OccursAt(s, pat, j)
    ensures Replace(s, pat, rep) == s[..i] + Replace(s[i..], pat, rep)
    decreases i
  {
    if i == 0 {
      assert s[..0] == [] && s[0..] == s;
    } else {
      ReplaceMiss(s, pat, rep);
      forall j | 0 <= j < i - 1 ensures !OccursAt(s[1..], pat, j) {
        OccursShift(s, pat, j + 1);
      }
      ReplaceBefore(s[1..], pat, rep, i - 1);
      assert s[1..][i - 1..] == s[i..];
      assert [s[0]] + s[1..][..i - 1] == s[..i];
    }
  }

  /** The first occurrence of `pat`, at `i`, is replaced and the scan
      resumes after it. */
  lemma {:induction false} ReplaceAtFirst(s: string, pat: string, rep: string, i: nat)
    requires pat != [] && OccursAt(s, pat, i)
    requires forall j :: 0 <= j < i ==> !OccursAt(s, pat, j)
    ensures Replace(s, pat, rep) == s[..i] + rep + Replace(s[i + |pat|..], pat, rep)
  {
    var t := s[i..];
    ReplaceBefore(s, pat, rep, i);
    assert OccursAt(t, pat, 0) by {
      assert t[0..|pat|] == s[i..i + |pat|];
    }
    ReplaceHit(t, pat, rep);
    assert t[|pat|..] == s[i + |pat|..];
  }

  /** `s.replace(pat, rep)` is `rep.join(s.split(pat))`. */
  lemma {:induction false} ReplaceIsSplitJoin(s: string, pat: string, rep: string)
    requires pat != []
    ensures Replace(s, pat, rep) == Join(SplitStr(s, pat), rep)
    decreases |s|
  {
    var i := Find(s, pat);
    if i < 0 {
      ReplaceAbsent(s, pat, rep);
      assert SplitStr(s, pat) == [s];
    } else {
      var rest := s[i + |pat|..];
      var tail := SplitStr(rest, pat);
      assert SplitStr(s, pat) == [s[..i]] + tail;
      calc {
        Replace(s, pat, rep);
      == { ReplaceAtFirst(s, pat, rep, i); }
        s[..i] + rep + Replace(rest, pat, rep);
      == { ReplaceIsSplitJoin(rest, pat, rep); }
        s[..i] + rep + Join(tail, rep);
      == { JoinCons(s[..i], tail, rep); }
        Join([s[..i]] + tail, rep);
      }
    }
  }

  /** An occurrence within a prefix is an occurrence in the whole. */
  lemma {:induction false} OccursInPrefix(s: string, sub: string, n: nat, p: int)
    requires n <= |s|
    ensures OccursAt(s[..n], sub, p) ==> OccursAt(s, sub, p)
  {
    if 0 <= p && p + |sub| <= n {
      assert s[..n][p..p + |sub|] == s[p..p + |sub|];
    }
  }

  /** Lower-casing keeps an occurrence, lower-cased. */
  lemma {:induction false} ContainsLower(s: string, sub: string)
    requires Contains(s, sub)
    ensures Contains(Lower(s), Lower(sub))
  {
    var i := Find(s, sub);
    assert Lower(s)[i..i + |sub|] == Lower(sub);
    assert OccursAt(Lower(s), Lower(sub), i);
  }

  /** A string occurs in any string built around it. */
  lemma {:induction false} ContainsMiddle(a: string, x: string, b: string)
    ensures Contains(a + x + b, x)
  {
    var s := a + x + b;
    assert s[|a|..|a| + |x|] == x;
    assert OccursAt(s, x, |a|);
  }

  /** A string built from five pieces starts with the first and holds the
      third and the fourth. */
  lemma {:induction false} FivePieces(h: string, m: string, x: string, y: string, c: string)
    ensures IsPrefix(h, h + m + x + y + c)
    ensures Contains(h + m + x + y + c, x) && Contains(h + m + x + y + c, y)
  {
    var s := h + m + x + y + c;
    assert s[..|h|] == h;
    assert s[|h + m|..|h + m| + |x|] == x;
    assert OccursAt(s, x, |h + m|);
    assert s[|h + m + x|..|h + m + x| + |y|] == y;
    assert OccursAt(s, y, |h + m + x|);
  }

  /** Replacing a single character works piece by piece. */
  lemma {:induction false} ReplaceCharAppend(a: string, b: string, c: char, rep: string)
    ensures Replace(a + b, [c], rep) == Replace(a, [c], rep) + Replace(b, [c], rep)
    decreases |a|
  {
    if a == [] {
      assert a + b == b;
    } else {
      var s := a + b;
      assert s[1..] == a[1..] + b;
      assert s[..1] == [a[0]] && a[..1] == [a[0]];
      assert IsPrefix([c], s) <==> a[0] == c;
      assert IsPrefix([c], a) <==> a[0] == c;
      ReplaceCharAppend(a[1..], b, c, rep);
    }
  }

  /** Replacing a character the string does not hold changes nothing. */
  lemma {:induction false} ReplaceCharAbsent(s: string, c: char, rep: string)
    requires c !in s
    ensures Replace(s, [c], rep) == s
    decreases |s|
  {
    if s != [] {
      assert s[0] in s;
      assert !IsPrefix([c], s);
      assert forall x :: x in s[1..] ==> x in s;
      ReplaceCharAbsent(s[1..], c, rep);
    }
  }
}

=== FILE: user_store.dfy ===
/** The mock account store behind the support responder and the three tool
    functions that render its records as text. The store is an immutable
    record threaded through the calls; loading and saving the JSON file is
    not modelled. Money is held in integer cents. */
module UserStore {
  import opened Wrappers
  import opened Text
  import opened Numbers
  import opened Sorting

  datatype User = User(
    id: string, name: string, email: string, phone: string,
    accountType: string, balance: int, status: string, createdAt: string)

  datatype Transaction = Transaction(
    id: string, userId: string, kind: string, amount: int,
    description: string, status: string, createdAt: string)

  datatype Ticket = Ticket(
    id: string, userId: string, subject: string, description: string,
    status: string, priority: string, createdAt: string)

  datatype Store = Store(users: seq<User>, transactions: seq<Transaction>, tickets: seq<Ticket>)

  // ---------------------------------------------------------------------
  // Lookups

  /** `get_user_by_id`: the first user with that id, if any. */
  function GetUserById(store: Store, userId: string): (r: Option<User>)
    ensures r.None? <==> forall i :: 0 <= i < |store.users| ==> store.users[i].id != userId
    ensures r.Some? ==> exists i :: 0 <= i < |store.users| && store.users[i] == r.value
                          && r.value.id == userId
                          && forall j :: 0 <= j < i ==> store.users[j].id != userId
  {
    FirstUser(store.users, userId)
  }

  function FirstUser(users: seq<User>, userId: string): (r: Option<User>)
    ensures r.None? <==> forall i :: 0 <= i < |users| ==> users[i].id != userId
    ensures r.Some? ==> exists i :: 0 <= i < |users| && users[i] == r.value
                          && r.value.id == userId
                          && forall j :: 0 <= j < i ==> users[j].id != userId
  {
    if users == [] then None
    else if users[0].id == userId then Some(users[0])
    else
      var r := FirstUser(users[1..], userId);
      assert forall i :: 1 <= i < |users| ==> users[i] == users[1..][i - 1];
      r
  }

  /** The transactions that belong to `userId`, in store order. */
  function TransactionsOf(txns: seq<Transaction>, userId: string): (r: seq<Transaction>)
    ensures forall t :: t in r <==> t in txns && t.userId == userId
    ensures |r| <= |txns|
  {
    if txns == [] then []
    else (if txns[0].userId == userId then [txns[0]] else []) + TransactionsOf(txns[1..], userId)
  }

  /** The filter distributes over concatenation, so it keeps store order. */
  lemma {:induction false} TransactionsOfAppend(a: seq<Transaction>, b: seq<Transaction>, userId: string)
    ensures TransactionsOf(a + b, userId) == TransactionsOf(a, userId) + TransactionsOf(b, userId)
    decreases |a|
  {
    if a == [] {
      assert a + b == b;
    } else {
      assert (a + b)[0] == a[0];
      assert (a + b)[1..] == a[1..] + b;
      TransactionsOfAppend(a[1..], b, userId);
    }
  }

  function CreatedAt(t: Transaction): string {
    t.createdAt
  }

  /** Python's `s[:n]`, where a negative `n` counts from the end. */
  function PyPrefix<T(==)>(s: seq<T>, n: int): (r: seq<T>)
    ensures IsSeqPrefix(r, s)
    ensures 0 <= n <= |s| ==> |r| == n
    ensures n > |s| ==> r == s
  {
    if n >= 0 then (if n <= |s| then s[..n] else s)
    else if -n <= |s| then s[..|s| + n] else []
  }

  predicate IsSeqPrefix<T(==)>(p: seq<T>, s: seq<T>) {
    |p| <= |s| && s[..|p|] == p
  }

  /** `sorted(txns, key=created_at, reverse=True)` with its specification:
      a permutation, newest first, and equal timestamps kept in store order. */
  function NewestFirst(txns: seq<Transaction>): (r: seq<Transaction>)
    ensures multiset(r) == multiset(txns)
    ensures SortedDesc(r, CreatedAt)
    ensures forall k :: WithKey(r, CreatedAt, k) == WithKey(txns, CreatedAt, k)
  {
    SortDescPermutes(txns, CreatedAt);
    SortDescSorted(txns, CreatedAt);
    forall k ensures WithKey(SortDesc(txns, CreatedAt), CreatedAt, k) == WithKey(txns, CreatedAt, k) {
      SortDescStable(txns, CreatedAt, k);
    }
    SortDesc(txns, CreatedAt)
  }

  /** `get_user_transactions`: that user's transactions, newest first, cut
      to `limit`. */
  function GetUserTransactions(store: Store, userId: string, limit: int): (r: seq<Transaction>)
    ensures forall t :: t in r ==> t in store.transactions && t.userId == userId
    ensures 0 <= limit ==> |r| <= limit
    ensures 0 <= limit ==> |r| == if limit <= |TransactionsOf(store.transactions, userId)|
                                  then limit else |TransactionsOf(store.transactions, userId)|
    ensures SortedDesc(r, CreatedAt)
    ensures IsSeqPrefix(r, NewestFirst(TransactionsOf(store.transactions, userId)))
  {
    var mine := TransactionsOf(store.transactions, userId);
    var all := NewestFirst(mine);
    var r := PyPrefix(all, limit);
    PrefixMembers(r, all);
    NewestFirstMembers(mine);
    r
  }

  lemma {:induction false} PrefixMembers<T>(p: seq<T>, s: seq<T>)
    requires IsSeqPrefix(p, s)
    ensures forall t :: t in p ==> t in s
  {
    forall t | t in p ensures t in s {
      var i :| 0 <= i < |p| && p[i] == t;
      assert s[i] == t;
    }
  }

  /** Sorting keeps exactly the transactions it was given. */
  lemma {:induction false} NewestFirstMembers(txns: seq<Transaction>)
    ensures forall t :: t in NewestFirst(txns) <==> t in txns
  {
    var r := NewestFirst(txns);
    assert forall t :: t in r <==> t in multiset(r);
    assert forall t :: t in txns <==> t in multiset(txns);
  }

  /** `get_user_support_tickets` */
  function GetUserSupportTickets(store: Store, userId: string): (r: seq<Ticket>)
    ensures forall t :: t in r <==> t in store.tickets && t.userId == userId
  {
    TicketsOf(store.tickets, userId)
  }

  function TicketsOf(tickets: seq<Ticket>, userId: string): (r: seq<Ticket>)
    ensures forall t :: t in r <==> t in tickets && t.userId == userId
  {
    if tickets == [] then []
    else (if tickets[0].userId == userId then [tickets[0]] else []) + TicketsOf(tickets[1..], userId)
  }

  /** The filter distributes over concatenation, so it keeps store order. */
  lemma {:induction false} TicketsOfAppend(a: seq<Ticket>, b: seq<Ticket>, userId: string)
    ensures TicketsOf(a + b, userId) == TicketsOf(a, userId) + TicketsOf(b, userId)
    decreases |a|
  {
    if a == [] {
      assert a + b == b;
    } else {
      assert (a + b)[0] == a[0];
      assert (a + b)[1..] == a[1..] + b;
      TicketsOfAppend(a[1..], b, userId);
    }
  }

  // ---------------------------------------------------------------------
  // Ticket creation

  const TicketPrefix := "ticket"

  /** The number an id of the form `ticket<int>` carries, if it has one. */
  function TicketNumber(id: string): Option<int> {
    if IsPrefix(TicketPrefix, id) then ParseInt(id[|TicketPrefix|..]) else None
  }

  /** The running maximum of the ticket numbers, starting from 0. */
  function MaxTicketNumber(tickets: seq<Ticket>): (m: int)
    ensures m >= 0
    ensures forall i :: 0 <= i < |tickets| ==>
      TicketNumber(tickets[i].id).Some? ==> TicketNumber(tickets[i].id).value <= m
  {
    if tickets == [] then 0
    else
      var m := MaxTicketNumber(tickets[..|tickets| - 1]);
      var n := TicketNumber(tickets[|tickets| - 1].id);
      assert forall i :: 0 <= i < |tickets| - 1 ==> tickets[i] == tickets[..|tickets| - 1][i];
      if n.Some? && n.value > m then n.value else m
  }

  /** The maximum is 0 or the number of some ticket. */
  lemma {:induction false} MaxTicketNumberAttained(tickets: seq<Ticket>)
    ensures var m := MaxTicketNumber(tickets);
      m == 0 || exists i :: 0 <= i < |tickets| && TicketNumber(tickets[i].id) == Some(m)
    decreases |tickets|
  {
    if tickets != [] {
      var init := tickets[..|tickets| - 1];
      var m := MaxTicketNumber(init);
      MaxTicketNumberAttained(init);
      if m != 0 && MaxTicketNumber(tickets) == m {
        var i :| 0 <= i < |init| && TicketNumber(init[i].id) == Some(m);
        assert tickets[i] == init[i];
      }
    }
  }

  lemma {:induction false} TicketNumberOfId(n: nat)
    ensures var id := TicketPrefix + ZFill(IntToString(n), 3);
      IsPrefix(TicketPrefix, id) && TicketNumber(id) == Some(n)
  {
    var id := TicketPrefix + ZFill(IntToString(n), 3);
    assert id[..|TicketPrefix|] == TicketPrefix;
    assert id[|TicketPrefix|..] == ZFill(NatToString(n), 3);
    ParseZFilledNat(n, 3);
  }

  /** `f"ticket{str(n).zfill(3)}"`: an id that reads back as `n`. */
  function TicketId(n: nat): (id: string)
    ensures IsPrefix(TicketPrefix, id) && |id| >= |TicketPrefix| + 3
    ensures TicketNumber(id) == Some(n)
  {
    TicketNumberOfId(n);
    TicketPrefix + ZFill(IntToString(n), 3)
  }

  /** An id numbered above every ticket number in use is not taken. */
  lemma {:induction false} IdAboveIsFresh(tickets: seq<Ticket>, m: nat)
    requires forall i :: 0 <= i < |tickets| ==>
      TicketNumber(tickets[i].id).Some? ==> TicketNumber(tickets[i].id).value <= m
    ensures forall i :: 0 <= i < |tickets| ==> tickets[i].id != TicketId(m + 1)
  {
    var id := TicketId(m + 1);
    forall i | 0 <= i < |tickets| ensures tickets[i].id != id {
      var n := TicketNumber(tickets[i].id);
      assert n.Some? ==> n.value <= m;
    }
  }

  /** `create_support_ticket`, without the file write: `None` and the store
      unchanged for an unknown user; otherwise one new open, medium-priority
      ticket appended at the end. `now` stands for `datetime.now().isoformat()`. */
  function CreateSupportTicket(store: Store, userId: string, subject: string, description: string, now: string)
    : (r: (Option<Ticket>, Store))
    ensures r.0.None? <==> GetUserById(store, userId).None?
    ensures r.0.None? ==> r.1 == store
    ensures r.0.Some? ==>
      r.0.value == NewTicket(store.tickets, MaxTicketNumber(store.tickets), userId, subject, description, now)
    ensures r.0.Some? ==>
      && r.1.users == store.users && r.1.transactions == store.transactions
      && r.1.tickets == store.tickets + [r.0.value]
      && r.0.value.userId == userId && r.0.value.subject == subject
      && r.0.value.description == description
      && r.0.value.status == "open" && r.0.value.priority == "medium"
      && forall i :: 0 <= i < |store.tickets| ==> store.tickets[i].id != r.0.value.id
  {
    match GetUserById(store, userId)
    case None => (None, store)
    case Some(_) =>
      var m := MaxTicketNumber(store.tickets);
      var t := NewTicket(store.tickets, m, userId, subject, description, now);
      (Some(t), store.(tickets := store.tickets + [t]))
  }

  /** A new ticket is numbered one above the highest ticket number in use
      (0 when none is). */
  lemma {:induction false} CreatedTicketId(store: Store, userId: string, subject: string, description: string, now: string)
    ensures CreateSupportTicket(store, userId, subject, description, now).0.Some? ==>
      CreateSupportTicket(store, userId, subject, description, now).0.value.id
        == TicketId(MaxTicketNumber(store.tickets) + 1)
  {
    NewTicketNumbered(store.tickets, userId, subject, description, now);
  }

  /** The ticket built from the current maximum carries the next number. */
  lemma NewTicketNumbered(tickets: seq<Ticket>, userId: string, subject: string, description: string, now: string)
    ensures NewTicket(tickets, MaxTicketNumber(tickets), userId, subject, description, now).id
      == TicketId(MaxTicketNumber(tickets) + 1)
  {
  }

  /** The ticket `create_support_ticket` appends, given the highest ticket
      number `m` in use: numbered `m + 1`, open, medium priority. */
  function NewTicket(tickets: seq<Ticket>, m: nat, userId: string, subject: string, description: string, now: string)
    : (t: Ticket)
    requires forall i :: 0 <= i < |tickets| ==>
      TicketNumber(tickets[i].id).Some? ==> TicketNumber(tickets[i].id).value <= m
    ensures t == Ticket(TicketId(m + 1), userId, subject, description, "open", "medium", now)
    ensures forall i :: 0 <= i < |tickets| ==> tickets[i].id != t.id
  {
    IdAboveIsFresh(tickets, m);
    Ticket(TicketId(m + 1), userId, subject, description, "open", "medium", now)
  }

  // ---------------------------------------------------------------------
  // Tool selection

  datatype ToolName = GetAccountDetailsTool | GetRecentTransactionsTool | OpenSupportTicketTool

  /** The keyword lists of `TOOL_METADATA`, in its order. */
  const ToolMetadata: seq<(ToolName, seq<string>)> := [
    (GetAccountDetailsTool, [
      "conta", "saldo", "dados", "informações", "cadastro", "perfil", "login", "entrar",
      "acessar", "acesso", "minha conta", "meus dados", "dados cadastrais",
      "account", "balance", "details", "information", "profile", "login", "sign in",
      "access", "my account", "my data", "account details", "can't login", "cannot access"]),
    (GetRecentTransactionsTool, [
      "transações", "extrato", "pagamentos", "saques", "histórico", "movimentações",
      "transferências", "transações recentes", "extrato bancário",
      "transactions", "statement", "payments", "withdrawals", "history", "movements",
      "transfers", "recent transactions", "bank statement", "transaction history"]),
    (OpenSupportTicketTool, [
      "suporte", "ajuda", "problema", "ticket", "reclamação", "assistência", "atendimento",
      "preciso de ajuda", "tenho um problema", "falar com suporte",
      "support", "help", "issue", "problem", "ticket", "complaint", "assistance",
      "need help", "i have a problem", "contact support", "speak with support"])
  ]

  /** Tools of `meta` (a suffix of the table starting at `from`) whose keyword
      list has a hit in `q`. */
  function SuggestFrom(q: string, from: nat): (r: seq<ToolName>)
    requires from <= |ToolMetadata|
    ensures forall t :: t in r <==> exists i :: from <= i < |ToolMetadata| && ToolMetadata[i].0 == t
                                               && ContainsAny(q, ToolMetadata[i].1)
    ensures forall i, j :: 0 <= i < j < |r| ==> Rank(r[i]) < Rank(r[j])
    ensures forall i :: 0 <= i < |r| ==> from <= Rank(r[i])
    decreases |ToolMetadata| - from
  {
    if from == |ToolMetadata| then []
    else
      var rest := SuggestFrom(q, from + 1);
      if ContainsAny(q, ToolMetadata[from].1) then [ToolMetadata[from].0] + rest else rest
  }

  /** Position of a tool in `TOOL_METADATA`. */
  function Rank(t: ToolName): nat {
    match t
    case GetAccountDetailsTool => 0
    case GetRecentTransactionsTool => 1
    case OpenSupportTicketTool => 2
  }

  /** `get_tool_suggestions`: each tool at most once, in table order, exactly
      when one of its keywords occurs in the lower-cased query. */
  function GetToolSuggestions(query: string): (r: seq<ToolName>)
    ensures forall t :: t in r <==> exists i :: 0 <= i < |ToolMetadata| && ToolMetadata[i].0 == t
                                               && ContainsAny(Lower(query), ToolMetadata[i].1)
    ensures forall i, j :: 0 <= i < j < |r| ==> Rank(r[i]) < Rank(r[j])
  {
    SuggestFrom(Lower(query), 0)
  }

  // ---------------------------------------------------------------------
  // Currency

  /** Digits grouped in threes from the right with `sep` between groups. */
  function GroupThousands(digits: string, sep: char): string
    decreases |digits|
  {
    if |digits| <= 3 then digits
    else GroupThousands(digits[..|digits| - 3], sep) + [sep] + digits[|digits| - 3..]
  }

  function TwoDigits(n: nat): string
    requires n < 100
  {
    [DigitChar(n / 10), DigitChar(n % 10)]
  }

  function Abs(n: int): nat {
    if n < 0 then -n else n
  }

  function SignOf(n: int): string {
    if n < 0 then "-" else ""
  }

  /** `f"{amount:,.2f}"` for an amount held in cents. */
  function FormatEnUS(cents: int): string {
    var a := Abs(cents);
    SignOf(cents) + GroupThousands(NatToString(a / 100), ',') + "." + TwoDigits(a % 100)
  }

  /** `f"R$ {amount:,.2f}".replace(",", "X").replace(".", ",").replace("X", ".")`:
      the Brazilian rendering. */
  function FormatBRL(cents: int): (r: string)
    ensures r == BrazilianAmount(cents)
  {
    FormatBRLIsBrazilian(cents);
    Replace(Replace(Replace("R$ " + FormatEnUS(cents), ",", "X"), ".", ","), "X", ".")
  }

  /** The pt-BR rendering written out directly: '.' between thousands
      groups and ',' before the two cent digits. */
  function BrazilianAmount(cents: int): string {
    var a := Abs(cents);
    "R$ " + SignOf(cents) + GroupThousands(NatToString(a / 100), '.') + "," + TwoDigits(a % 100)
  }

  lemma {:induction false} GroupedChars(digits: string, sep: char)
    requires AllDigits(digits)
    ensures forall c :: c in GroupThousands(digits, sep) ==> IsDigit(c) || c == sep
    decreases |digits|
  {
    if |digits| > 3 {
      GroupedChars(digits[..|digits| - 3], sep);
    }
  }

  lemma {:induction false} GroupedSwap(digits: string, a: char, b: char)
    requires AllDigits(digits) && !IsDigit(a)
    ensures Replace(GroupThousands(digits, a), [a], [b]) == GroupThousands(digits, b)
    decreases |digits|
  {
    if |digits| <= 3 {
      ReplaceCharAbsent(digits, a, [b]);
    } else {
      var hi := digits[..|digits| - 3];
      var lo := digits[|digits| - 3..];
      GroupedSwap(hi, a, b);
      ReplaceCharAppend(GroupThousands(hi, a) + [a], lo, a, [b]);
      ReplaceCharAppend(GroupThousands(hi, a), [a], a, [b]);
      assert Replace([a], [a], [b]) == [b] by {
        assert IsPrefix([a], [a]);
        assert [a][1..] == [];
      }
      ReplaceCharAbsent(lo, a, [b]);
    }
  }

  /** The three sequential replacements amount to swapping the two
      separators: the result is the pt-BR rendering. */
  lemma {:induction false} FormatBRLIsBrazilian(cents: int)
    ensures Replace(Replace(Replace("R$ " + FormatEnUS(cents), ",", "X"), ".", ","), "X", ".")
            == BrazilianAmount(cents)
  {
    var a := Abs(cents);
    var sign := SignOf(cents);
    var whole := NatToString(a / 100);
    var frac := TwoDigits(a % 100);
    var head := "R$ " + sign;
    assert ',' !in head && '.' !in head && 'X' !in head;
    assert ',' !in frac && '.' !in frac && 'X' !in frac;
    GroupedChars(whole, ',');
    GroupedChars(whole, 'X');
    GroupedChars(whole, '.');
    var g1 := GroupThousands(whole, ',');
    var g2 := GroupThousands(whole, 'X');
    var g3 := GroupThousands(whole, '.');
    assert "R$ " + FormatEnUS(cents) == head + g1 + "." + frac;
    // step 1: ',' -> 'X'
    ReplaceCharAppend(head + g1 + ".", frac, ',', "X");
    ReplaceCharAppend(head + g1, ".", ',', "X");
    ReplaceCharAppend(head, g1, ',', "X");
    ReplaceCharAbsent(head, ',', "X");
    ReplaceCharAbsent(".", ',', "X");
    ReplaceCharAbsent(frac, ',', "X");
    GroupedSwap(whole, ',', 'X');
    var s1 := head + g2 + "." + frac;
    assert Replace("R$ " + FormatEnUS(cents), ",", "X") == s1;
    // step 2: '.' -> ','
    ReplaceCharAppend(head + g2 + ".", frac, '.', ",");
    ReplaceCharAppend(head + g2, ".", '.', ",");
    ReplaceCharAppend(head, g2, '.', ",");
    ReplaceCharAbsent(head, '.', ",");
    ReplaceCharAbsent(g2, '.', ",");
    ReplaceCharAbsent(frac, '.', ",");
    assert Replace(".", ".", ",") == "," by {
      assert IsPrefix(".", ".");
    }
    var s2 := head + g2 + "," + frac;
    assert Replace(s1, ".", ",") == s2;
    // step 3: 'X' -> '.'
    ReplaceCharAppend(head + g2 + ",", frac, 'X', ".");
    ReplaceCharAppend(head + g2, ",", 'X', ".");
    ReplaceCharAppend(head, g2, 'X', ".");
    ReplaceCharAbsent(head, 'X', ".");
    ReplaceCharAbsent(",", 'X', ".");
    ReplaceCharAbsent(frac, 'X', ".");
    GroupedSwap(whole, 'X', '.');
    assert Replace(s2, "X", ".") == head + g3 + "," + frac;
  }

  /** A balance of 1500.00 is shown as `R$ 1.500,00`. */
  lemma {:induction false} FormatBRLExample()
    ensures FormatBRL(150000) == "R$ 1.500,00"
  {
    BrazilianExample();
  }

  lemma {:induction false} BrazilianExample()
    ensures BrazilianAmount(150000) == "R$ 1.500,00"
  {
    assert Abs(150000) / 100 == 1500 && Abs(150000) % 100 == 0;
    assert TwoDigits(0) == "00";
    Digits1500();
    Grouped1500();
  }

  lemma Digits1500()
    ensures NatToString(1500) == "1500"
  {
    assert NatToString(1) == "1";
    assert NatToString(15) == "15";
    assert NatToString(150) == "150";
  }

  lemma Grouped1500()
    ensures GroupThousands("1500", '.') == "1.500"
  {
    assert "1500"[..1] == "1" && "1500"[1..] == "500";
  }

  // ---------------------------------------------------------------------
  // Tool functions

  function NotFoundMessage(userId: string): string {
    "❌ Usuário " + userId + " não encontrado."
  }

  function AccountStatusEmoji(status: string): string {
    if status == "active" then "✅"
    else if status == "suspended" then "⚠️"
    else if status == "inactive" then "❌"
    else "❓"
  }

  function AccountTypePt(accountType: string): string {
    if accountType == "personal" then "Pessoal"
    else if accountType == "business" then "Empresarial"
    else accountType
  }

  const AccountHeader := "📋 **Dados da Conta**"

  /** The card `get_account_details` renders for a user. */
  function AccountCard(u: User): string {
    AccountHeader + AccountIdentity(u) + BalanceLine(u.balance)
    + StatusLine(u.status) + CreatedLine(u.createdAt)
  }

  function CreatedLine(createdAt: string): string {
    "**Data de Criação:** " + createdAt
  }

  function AccountIdentity(u: User): string {
    "\n\n"
    + "**Nome:** " + u.name + "\n"
    + "**Email:** " + u.email + "\n"
    + "**Telefone:** " + u.phone + "\n"
    + "**Tipo de Conta:** " + AccountTypePt(u.accountType) + "\n"
  }

  function BalanceLine(balance: int): string {
    "**Saldo Atual:** " + FormatBRL(balance) + "\n"
  }

  function StatusLine(status: string): string {
    "**Status:** " + AccountStatusEmoji(status) + " " + Title(status) + "\n"
  }

  /** `get_account_details`: the not-found message for an unknown user,
      otherwise the account card, which shows the balance in pt-BR format
      and the status with its emoji. */
  function GetAccountDetails(store: Store, userId: string): (r: string)
    ensures GetUserById(store, userId).None? ==> r == NotFoundMessage(userId)
    ensures GetUserById(store, userId).Some? ==>
      var u := GetUserById(store, userId).value;
      && IsPrefix(AccountHeader, r)
      && Contains(r, "**Saldo Atual:** " + BrazilianAmount(u.balance) + "\n")
      && Contains(r, StatusLine(u.status))
  {
    match GetUserById(store, userId)
    case None => NotFoundMessage(userId)
    case Some(u) =>
      FivePieces(AccountHeader, AccountIdentity(u), BalanceLine(u.balance), StatusLine(u.status),
                 CreatedLine(u.createdAt));
      AccountCard(u)
  }

  function TransactionStatusEmoji(status: string): string {
    if status == "completed" then "✅"
    else if status == "pending" then "⏳"
    else if status == "failed" then "❌"
    else "❓"
  }

  function TransactionTypePt(kind: string): string {
    if kind == "payment" then "Pagamento"
    else if kind == "withdrawal" then "Saque"
    else if kind == "deposit" then "Depósito"
    else kind
  }

  const TransactionsHeader := "📊 **Transações Recentes**\n\n"
  const NoTransactionsMessage := "📊 **Transações Recentes**\n\nNenhuma transação encontrada."

  /** One transaction as `get_recent_transactions` prints it. */
  function TransactionBlock(t: Transaction): string {
    "**" + TransactionTypePt(t.kind) + "** - " + FormatBRL(t.amount) + "\n"
    + "Descrição: " + t.description + "\n"
    + "Status: " + TransactionStatusEmoji(t.status) + " " + Title(t.status) + "\n"
    + "Data: " + t.createdAt + "\n"
    + Repeat('-', 20) + "\n\n"
  }

  function TransactionBlocks(txns: seq<Transaction>): (r: string)
    ensures txns != [] ==> |r| >= 3 && r[|r| - 3] == '-' && r[|r| - 2..] == "\n\n"
  {
    if txns == [] then [] else TransactionBlock(txns[0]) + TransactionBlocks(txns[1..])
  }

  /** `get_recent_transactions`: not found, no transactions, or the header
      followed by one block per transaction of `GetUserTransactions`, the
      final blank line stripped. */
  function GetRecentTransactions(store: Store, userId: string, limit: int): (r: string)
    ensures GetUserById(store, userId).None? ==> r == NotFoundMessage(userId)
    ensures GetUserById(store, userId).Some? ==>
      var txns := GetUserTransactions(store, userId, limit);
      && (txns == [] ==> r == NoTransactionsMessage)
      && (txns != [] ==> r + "\n\n" == TransactionsHeader + TransactionBlocks(txns))
  {
    match GetUserById(store, userId)
    case None => NotFoundMessage(userId)
    case Some(_) =>
      var txns := GetUserTransactions(store, userId, limit);
      if txns == [] then NoTransactionsMessage else Listing(txns)
  }

  /** The header and the blocks, stripped: only the final blank line goes. */
  function Listing(txns: seq<Transaction>): (r: string)
    requires txns != []
    ensures r + "\n\n" == TransactionsHeader + TransactionBlocks(txns)
  {
    var blocks := TransactionBlocks(txns);
    StripListing(blocks);
    Strip(TransactionsHeader + blocks)
  }

  /** Stripping the listing removes exactly the final blank line. */
  lemma {:induction false} StripListing(blocks: string)
    requires |blocks| >= 3 && blocks[|blocks| - 3] == '-' && blocks[|blocks| - 2..] == "\n\n"
    ensures Strip(TransactionsHeader + blocks) + "\n\n" == TransactionsHeader + blocks
  {
    var full := TransactionsHeader + blocks;
    var n := |full|;
    var body := full[..n - 2];
    assert full[n - 3] == '-';
    assert body[|body| - 1] == '-';
    assert body[0] == TransactionsHeader[0];
    assert IsStripped(body);
    assert full[n - 2..] == "\n\n";
    assert full == body + "\n\n";
    StripTrailingSpace(body, "\n\n");
  }

  /** `open_support_ticket`: creates the ticket and renders the
      confirmation; for an unknown user the store is left as it is. */
  function OpenSupportTicket(store: Store, userId: string, subject: string, description: string, now: string)
    : (r: (string, Store))
    ensures GetUserById(store, userId).None? ==>
      r.0 == "❌ Não foi possível criar o ticket. Usuário " + userId + " não encontrado." && r.1 == store
    ensures GetUserById(store, userId).Some? ==>
      && r.1.users == store.users && r.1.transactions == store.transactions
      && |r.1.tickets| == |store.tickets| + 1
      && r.1.tickets[..|store.tickets|] == store.tickets
      && r.1.tickets[|store.tickets|].userId == userId
      && r.1.tickets[|store.tickets|].subject == subject
      && Contains(r.0, "**ID do Ticket:** " + r.1.tickets[|store.tickets|].id + "\n")
  {
    var (ticket, store') := CreateSupportTicket(store, userId, subject, description, now);
    match ticket
    case None => ("❌ Não foi possível criar o ticket. Usuário " + userId + " não encontrado.", store')
    case Some(t) =>
      var before := "✅ **Ticket Criado com Sucesso!**\n\n";
      var idLine := "**ID do Ticket:** " + t.id + "\n";
      var after := "**Assunto:** " + t.subject + "\n"
        + "**Status:** " + Title(t.status) + "\n\n"
        + "Nossa equipe de suporte entrará em contato em breve.\n"
        + "Obrigado por entrar em contato com o InfinitePay!";
      ContainsMiddle(before, idLine, after);
      (before + idLine + after, store')
  }
}

=== FILE: wrappers.dfy ===
/** Failure-carrying datatypes shared by the whole model. */
module Wrappers {

  /** Python's `Optional[T]`: a value or `None`. */
  datatype Option<+T> = None | Some(value: T) {

    /** The value, or `default` when there is none. */
    function GetOr(default: T): T {
      match this
      case Some(v) => v
      case None => default
    }
  }

  /** The outcome of a call into code outside the model (a language model,
      the retriever, the vector store): it either returned a value or it
      raised an exception, which the caller catches. */
  datatype Outcome<+T> = Returned(value: T) | Raised
}
